=== FILE: README.md ===
# directus-extension-here, modelled in Dafny

This project models the parts of the `directus-extension-here` Directus
extension whose behaviour is fixed once the outside world's answers are
fixed. The extension sends draft routes to the HERE routing API and keeps
its own Directus schema in step with a bundled `schema.json`.

- **Schema reconciliation** (`SchemaSync`, `SchemaUpdate`, `DeepEquality`,
  `Retry`). This covers `deepEqual` over JavaScript values and `withRetry` as
  a bounded retry loop over an oracle of attempt outcomes. It also covers
  `processFields`, which decides per field entry whether to skip it, create
  it, update it or leave it, and the `server.start` loop that creates
  missing collections with fixed defaults behind the "Schema inválido" guard.
- **Route-sync cycle** (`RoutingService`, `Rotas`, `Status`). The
  `here_routing` store is a map from id to record. One cycle of
  `sincronizar` clears the cache and queries the `draft` records. For each
  record it checks the endpoints, builds the payload, resolves the method,
  calls the API, and writes either the reply plus `published` or an error
  message. The store's own write failures are an oracle too; only a failed
  error write ends the cycle.
- **HTTP client** (`ApiClient`). It validates its constructor arguments,
  assembles the URL and body as strings, and maps non-ok statuses, aborts and
  other failures to the errors `get` and `post` reject with. What `fetch`
  returns is an input.
- **Update filter** (`RoutingHook`). This is the filter that forces an
  updated route's status to `draft` or `published`, together with the event
  name it is registered on.

Supporting modules: `Json` is the value model of JavaScript data: `typeof`,
truthiness, `===`, `Object.keys`, property read and property assignment.
`Decimal` holds number-to-text conversion for the messages. `Text` holds
`toUpperCase`, `join` and a `split` used as `join`'s inverse. `Wrappers` and
`Errors` hold `Option`/`Result` and thrown values.

## Model

| member | source | states |
|---|---|---|
| DeepEquality.DeepEqualReflexive | src/update-schema-hook/index.ts:118-130 | every value `JSON.parse` can produce (distinct keys, no NaN) is `deepEqual` to itself |
| DeepEquality.NaNIsNotDeepEqual | src/update-schema-hook/index.ts:119-122 | NaN is not `deepEqual` to itself, so the reflexivity precondition is needed |
| DeepEquality.FalsyOperand | src/update-schema-hook/index.ts:119-120 | with a falsy operand, `deepEqual` holds exactly when the operands are `===` |
| DeepEquality.PrimitiveOperand | src/update-schema-hook/index.ts:119-122 | when either operand is not an object, `deepEqual` is exactly `===` |
| DeepEquality.KeyCountMismatch | src/update-schema-hook/index.ts:124-127 | two objects with different numbers of own keys are never `deepEqual` |
| DeepEquality.ArrayEqualsIndexedObject | src/update-schema-hook/index.ts:121-129 | an array and the plain object with the same index keys and values are `deepEqual` in both orders |
| DeepEquality.DeepEqualNotSymmetric | src/update-schema-hook/index.ts:124-129 | `deepEqual` is not symmetric: `{length: 1}` equals `["x"]` but not the other way round |
| Retry.WithRetry | src/update-schema-hook/index.ts:50-65 | at most `retries` calls; the first success is returned and nothing is called after it; when every call throws, the last error is rethrown (none when `retries <= 0`); the wait after failed attempt i is `delayMs*(i+1)` and the last attempt is followed by no wait |
| SchemaSync.FindExisting | src/update-schema-hook/index.ts:78-85 | filtering by collection and then finding by name yields the first reported field matching both, or nothing exactly when none matches |
| SchemaSync.FieldDecision | src/update-schema-hook/index.ts:74-111 | `id` is skipped; a failed read writes nothing; no matching field ⇒ create; the first match not `deepEqual` ⇒ update; `deepEqual` ⇒ no write; a write carries the entry's type and its schema/meta, defaulted to `{}` |
| SchemaSync.FieldStepFor | src/update-schema-hook/index.ts:76-77 | an entry is skipped exactly when it is the `id` field; any write is aimed at that collection and that field |
| SchemaSync.ProcessField | src/update-schema-hook/index.ts:73-114 | the read is retried, then the write, each with the default retries, and the outcome is the decision above for those two retried results; the entry's `catch` throws exactly when the read, or a needed write, was finally rejected with `null` or `undefined` |
| SchemaSync.WritesOfTarget | src/update-schema-hook/index.ts:76 | every write of a run of `processFields` targets the collection being processed and never the `id` field |
| SchemaSync.OrEmptyObject | src/update-schema-hook/index.ts:74 | a missing `schema`/`meta` becomes `{}`, a present one is kept |
| SchemaSync.ProcessFields | src/update-schema-hook/index.ts:67-116 | the entries are handled in order, each by the decision above for its own retried read and write; an ordinary failure is logged and the loop goes on, and the run stops right after the first entry whose `catch` throws, reporting the crash; the writes sent are exactly those steps' writes, none targeting `id` |
| SchemaSync.ProcessEntry | src/update-schema-hook/index.ts:68-114 | one more entry is handled as prescribed; when its `catch` throws, the run so far is complete and crashed |
| SchemaSync.FieldsRanCrash | src/update-schema-hook/index.ts:112-114 | a run crashed exactly when some entry's `catch` throws, and a run that did not crash met no such entry |
| SchemaUpdate.CreateRequest | src/update-schema-hook/index.ts:189-211 | the created collection keeps its name; a missing or falsy meta becomes the fixed default meta and a missing schema becomes `{name}` |
| SchemaUpdate.CollectionNames | src/update-schema-hook/index.ts:185 | the existing names are the listed collections' `collection` properties, position by position |
| SchemaUpdate.FieldsFor | src/update-schema-hook/index.ts:214-216 | the entries handed to `processFields` are entries of that collection, and every entry of that collection is among them |
| SchemaUpdate.FieldsForCount | src/update-schema-hook/index.ts:214-216 | each entry of the collection is kept as often as it occurs in the schema, and entries of other collections are not kept at all |
| SchemaUpdate.FieldsForConcat | src/update-schema-hook/index.ts:214-216 | the filter keeps the schema's order: filtering two consecutive parts is filtering each in turn |
| SchemaUpdate.FieldsForSingle | src/update-schema-hook/index.ts:215 | a single entry is kept exactly when its `collection` is the one being processed |
| SchemaUpdate.ProcessCollection | src/update-schema-hook/index.ts:187-216 | a collection whose name is not listed is created first; the pass fails exactly when that creation is rejected (with its last error, before any field) or some field entry makes `processFields` throw (with the `TypeError`, after the entries up to that one); otherwise every field entry is processed; a failed pass still reports the creation request it sent and the field entries it processed |
| SchemaUpdate.UpdateSchema | src/update-schema-hook/index.ts:179-224 | no collections ⇒ aborted with "Schema inválido" before any request; a failed collection listing aborts; collection i is created exactly when its name is not listed, and then its fields are processed; the action aborts at the first collection whose creation is rejected (with that error) or whose field processing throws (with the `TypeError`), and that collection's pass stays in the result with the creation request it sent and the field entries processed before the throw; otherwise every collection is handled |
| Status.FromNomeRoundTrip | src/routing-service/StatusRota.ts:1-7 | each status constant is recovered from its name |
| Status.NomeInjective | src/routing-service/StatusRota.ts:2-5 | the four names `draft`, `published`, `archived`, `error` are pairwise distinct |
| Status.FromNomeComplete | src/routing-service/StatusRota.ts:2-5 | a name maps to a constant exactly when some constant carries it |
| ApiClient.NewApiClient | src/utils/api-client/api-client.ts:10-28 | construction fails with the fixed message exactly when `baseUrl`, `apiKey` or `path` is empty; the timeout defaults to 10000 |
| ApiClient.BuildRequest | src/utils/api-client/api-client.ts:30-54 | the URL starts with `baseUrl+path+"?apikey="+apiKey`; a GET with data appends `&` and the encoded data; there is a body only for a POST with data, and it is the data's JSON |
| ApiClient.RequestTargetsPath | src/utils/api-client/api-client.ts:32-35 | when neither `baseUrl` nor `path` contains `?`, the part of the URL before the first `?` is `baseUrl+path` |
| ApiClient.Settle | src/utils/api-client/api-client.ts:61-79 | a non-ok status rejects with "HTTP error! status: " and the status; an abort, of `fetch` itself or of the body read while the timer is still armed, rejects with the timeout message; any other error is rethrown unchanged; an ok reply yields the parsed body |
| ApiClient.SuccessNeedsOkStatus | src/utils/api-client/api-client.ts:64-70 | a request yields a value only when `fetch` answered with a 2xx status and a parsable body |
| ApiClient.HttpError500 | src/utils/api-client/api-client.test.ts:219-221 | a 500 reply rejects with exactly "HTTP error! status: 500" |
| ApiClient.DefaultTimeoutMessage | src/utils/api-client/api-client.ts:14 | a default client reports an abort as "Request timed out after 10000ms" |
| ApiClient.Get | src/utils/api-client/api-client.ts:82-84 | `get` sends a GET without a body, with the data in the query string |
| ApiClient.Post | src/utils/api-client/api-client.ts:86-88 | `post` sends a POST to the bare endpoint, with the data as its body |
| Decimal.ParseNatToString | src/utils/api-client/api-client.ts:65 | the decimal text of a status code reads back as that number |
| Decimal.IntToStringInjective | src/utils/api-client/api-client.ts:65 | distinct numbers give distinct texts, so the message names the status exactly |
| RoutingService.NewRoutingService | src/routing-service/routing-service.ts:27-49 | construction fails exactly when one of the three environment variables is missing or empty; otherwise the client gets the base URL, the token as API key, the routes path and the default timeout |
| RoutingService.ObterRotasPorStatus | src/routing-service/routing-service.ts:152-178 | a non-empty cache is returned without a query; otherwise it queries `fields ["*"]`, no limit, that status, and caches the answer; a failed query is rethrown |
| RoutingService.CacheServesRepeatedRead | src/routing-service/routing-service.ts:152-178 | once a read has filled the cache with a non-empty list, a second read issues no query and answers the same list, for any status and whatever the store would answer |
| RoutingService.Payload | src/routing-service/routing-service.ts:88-97 | the payload has the eight keys in the literal's order (their values are stated by `ParamsContents` and `ParamsColumns`) |
| RoutingService.ParamsDistinct | src/routing-service/routing-service.ts:211-214 | the parameters (the payload plus `apikey`) have pairwise distinct keys, so each lookup sees the intended value |
| RoutingService.ParamsContents | src/routing-service/routing-service.ts:88-97 | the parameters carry `apikey` set to the token, `return` and `spans` comma-joined or `""`, and the endpoints unchanged |
| RoutingService.ParamsColumns | src/routing-service/routing-service.ts:88-97 | the parameters carry the record's `transport_mode`, `currency`, `routingMode` and `vehicle_speed_cap` unchanged under `transportMode`, `currency`, `routingMode` and `vehicle[speedCap]` (`null` when absent) |
| RoutingService.PayloadListRoundTrip | src/routing-service/routing-service.ts:92-94 | a non-empty list without commas is recovered by splitting its joined form at commas |
| Text.SplitJoin | src/routing-service/routing-service.ts:92-94 | `split` undoes `join` for non-empty lists of separator-free strings |
| Text.ToUpperCaseIdempotent | src/routing-service/routing-service.ts:99 | upper-casing a method twice is upper-casing it once |
| RoutingService.ResolveMethod | src/routing-service/routing-service.ts:99 | a null or empty method becomes GET; any other method is its upper-cased form, so the result is never empty |
| RoutingService.ResolveMethodLetters | src/routing-service/routing-service.ts:99 | a non-empty method keeps its length, and each letter is upper-cased in place |
| RoutingService.ResolveMethodUpperCase | src/routing-service/routing-service.ts:99 | the resolved method has no lower-case letters, so resolving it again changes nothing |
| RoutingService.ResolveMethodExamples | src/routing-service/routing-service.ts:99 | null and `""` resolve to GET, `post` to POST, `Get` to GET and `put` to PUT |
| RoutingService.Send2Here | src/routing-service/routing-service.ts:204-237 | any method other than GET/POST is rejected with no call; GET and POST go to the client's `get`/`post` with the token added; a client error becomes "Erro na requisição: " plus its message, and a non-Error becomes "Erro desconhecido na requisição" |
| RoutingService.Dispatch | src/routing-service/routing-service.ts:67-71 | a record without origin or destination gets the missing-endpoints error and no request |
| RoutingService.Conclude | src/routing-service/routing-service.ts:100-115 | storing a reply or an error writes only that record, sets no status but `published`, and lets an error escape only from the error write |
| RoutingService.ConcludeCatch | src/routing-service/routing-service.ts:100-115 | an error escapes a record's `catch` exactly when an exception was caught and the error write then fails; with no exception the two success writes are made; when the error write succeeds, the last update stores the caught value's message |
| RoutingService.StoreWriteFailureStored | src/routing-service/routing-service.ts:101-114 | a failed `gravarResposta` or `definirStatus` after a successful call is caught: an `Error` stores its message, any other thrown value stores "Erro desconhecido", after whatever write had already succeeded |
| RoutingService.RunRecord | src/routing-service/routing-service.ts:63-116 | a record's pass writes only that record, never sets a status other than `published`, and lets an error escape only from its own error write |
| RoutingService.RecordEscapes | src/routing-service/routing-service.ts:103-115 | an error escapes a record's pass exactly when that pass catches an exception and its error write fails |
| RoutingService.MissingEndpointsOnlyWriteError | src/routing-service/routing-service.ts:67-71 | a record without origin or destination never reaches the API; only its `error` is written, or nothing when that write fails |
| RoutingService.RemoteCallCondition | src/routing-service/routing-service.ts:67-100 | the API is called exactly for records with both endpoints and a GET or POST method, with that verb, at the configured endpoint, and carrying that record's own payload plus the token: as the JSON body of a POST, or in the query string of a GET |
| RoutingService.UnsupportedMethodFails | src/routing-service/routing-service.ts:206-208 | any other method stores "Método HTTP não suportado: " plus the method, with no call |
| RoutingService.RemoteFailureStored | src/routing-service/routing-service.ts:103-115 | a failed API call stores "Erro na requisição: " plus the client's message as the record's error |
| RoutingService.SuccessfulCallPublishes | src/routing-service/routing-service.ts:100-102 | a successful call writes the serialised reply with status `published`, then the status again |
| RoutingService.PublishedRecord | src/routing-service/routing-service.ts:242-247 | after those writes the record is `published` with the reply as `response`, and an earlier `error` is kept |
| RoutingService.FailedRecord | src/routing-service/routing-service.ts:263-267 | an error write changes only `error`; the status stays as it was |
| Rotas.ApplyPatch | src/routing-service/routing-service.ts:183-185 | an `updateOne` changes only the columns it names |
| Rotas.ApplyUpdate | src/routing-service/routing-service.ts:244-247 | an update keeps the set of records and touches no other record |
| Rotas.ApplyAllConcat | src/routing-service/routing-service.ts:63-116 | applying the updates of consecutive records one after the other equals applying them all in order |
| Rotas.ApplyAllPointwise | src/routing-service/routing-service.ts:63-116 | a record's final state depends only on the updates addressed to it |
| RoutingService.SyncBatch | src/routing-service/routing-service.ts:63-116 | the loop runs the records' passes in order, stops after the first pass whose error escapes and rethrows that error, and the store ends with the updates of the passes run applied in order |
| RoutingService.RunsFollowRecords | src/routing-service/routing-service.ts:63-116 | run k of a cycle is record k's pass, addresses only record k, and sets no status but `published` |
| RoutingService.Sincronizar | src/routing-service/routing-service.ts:59-128 | a cycle clears the cache and queries the `draft` records; a failed query rethrows with the store untouched; record k's pass is the one `RunRecord` describes; the cycle rethrows exactly when the last record processed caught an exception and failed to store it, and then it rethrows that store error; the store ends with every accepted update applied in order |
| RoutingService.CycleRethrows | src/routing-service/routing-service.ts:63-116 | the cycle rethrows exactly when the error write of the last record processed fails, and then it rethrows that write's error; no earlier record's error write failed; the cycle goes through the whole batch exactly when no record's error write fails |
| RoutingService.CycleEffect | src/routing-service/routing-service.ts:63-116 | with distinct ids, each record of the batch ends as if it alone had been processed, and every record outside the batch is unchanged |
| RoutingService.RecordIsolation | src/routing-service/routing-service.ts:63-116 | the updates of other records do not affect a record |
| RoutingService.CycleOnlyPublishes | src/routing-service/StatusRota.ts:4-5 | the cycle leaves every record's status as it was or sets it to `published`; it never assigns `archived` or `error` |
| RoutingHook.FilterUpdate | src/routing-hook/index.ts:16-23 | a `draft` payload is returned unchanged; any other or absent status becomes `published`; the output status is `draft` or `published`; no other property changes |
| RoutingHook.FilterUpdateIdempotent | src/routing-hook/index.ts:16-23 | filtering twice is filtering once |
| RoutingHook.FilterUpdateFixedPoints | src/routing-hook/index.ts:17-22 | the filter leaves a payload unchanged exactly when its status is already `draft` or `published` |
| Json.AssignTwice | src/routing-hook/index.ts:21 | assigning the same status twice is assigning it once |
| Json.AssignDistinct | src/routing-hook/index.ts:21 | assigning `status` keeps the payload's keys distinct |
| RoutingHook.FilterMissesRoutingUpdates | src/routing-hook/index.ts:16 | as written, the filter is registered on `here-routing.items.update`, which is not the update event of `here_routing`, so an update archiving a route is stored unchanged |
| RoutingHook.FilterGuardsRoutingUpdates | src/routing-service/routing-service.ts:29 | registered on the routing collection's own update event, every stored route update has status `draft` or `published` |

## Left out

- The network, timers and aborts. `fetch`'s outcome (rejection, status and parsed body) is an oracle. The `AbortController`/`setTimeout` pair is reduced to the client's timeout value in the error message.
- Encodings. `URLSearchParams` and `JSON.stringify` are given functions (`ApiClient.Codec`). `response.json()` is part of the fetch outcome.
- The Directus platform. `ItemsService.readByQuery`/`updateOne` become a query oracle, a map store and a write-failure oracle. `getSchema`, the SDK client, `login`, `dotenv`/`process.env` and reading `schema.json` from disk are inputs or are not modelled.
- The readiness polling (`checkServiceReady`, 15 attempts 2 s apart), the login retry and the admin-credentials guard of the schema hook. They precede the modelled part and only decide whether it runs.
- The cron schedule, overlapping cycles and all logging, including the `HERE_API_INTEGRACAO_ATIVADA` flag, which only logs.
- `RoutingService.Dispatch`: the second endpoint check at routing-service.ts:77-81 can never fail after the first one, so it has no counterpart.
- The updates the cycle itself makes are not passed through the update filter; the two are modelled separately.
- `Text.ToUpperCase`: only ASCII letters are upper-cased; other characters' case mappings are not modelled.
- `RoutingHook.FilterUpdate`: `input.status == "draft"` is a loose comparison. An array or object status whose string form is `draft` is treated as not `draft`.
- `DeepEquality.DeepEqual`: JavaScript objects have no identity here, so two objects are never `===`; the source always compares separately built values. Prototype members, `-0`, `Infinity` and property order beyond insertion order are not modelled.
- `Retry.WithRetry`: the delays are returned as a list of durations rather than waited out.
- `RoutingService.Payload`: every column of a route is assumed to exist, so a missing value is read as `null`. If a column such as `return`, `spans`, `currency`, `routingMode` or `vehicle_speed_cap` did not exist at all, the source would send `undefined`, which `JSON.stringify` drops and `URLSearchParams` writes as the text "undefined"; that case is not modelled.
- `SchemaUpdate.UpdateSchema`: the text of the `TypeError` raised by reading `message` of `null` or `undefined` depends on the JavaScript engine, so it is modelled with an empty message. When the action's own `catch` receives a nullish value (a creation or listing rejected with one), its logging throws out of the handler; the model records the same abort.
- `SchemaSync.ProcessFields`: the reported field entries are assumed to be objects. The source filters them by `collection` inside the retried call, where a `null` entry would throw and be retried; the model filters after the retry and reads a property of `null` as `undefined`.

## Findings

| source | as written | input that shows it | evidently intended | confidence | as-written member | corrected member |
|---|---|---|---|---|---|---|
| src/routing-hook/index.ts:16 | the filter is registered on `here-routing.items.update`, but the routes live in the `here_routing` collection (routing-service.ts:29), whose update event is `here_routing.items.update` | an update of a `here_routing` item setting `status` to `archived`: the filter never runs and the status is stored as `archived` | register the filter on `here_routing.items.update`, so every stored update has status `draft` or `published` | medium, not executed | RoutingHook.FilterMissesRoutingUpdates | RoutingHook.FilterGuardsRoutingUpdates |

=== FILE: api_client.dfy ===
/** `ApiClient` (src/utils/api-client/api-client.ts): builds the HTTP request
    for the HERE routing endpoint and turns what `fetch` produced into a value
    or an error. `fetch` itself, the timer and the abort controller are
    outside the model: the outcome of `fetch` is an input. */
module ApiClient {
  import opened Wrappers
  import opened Errors
  import opened Json
  import opened Decimal
  import Text

  const DefaultRequestTimeout: int := 10000

  const MissingParametersMessage: string := "Parâmetros obrigatórios (baseUrl, apiKey, path) não foram fornecidos."

  datatype Client = Client(baseUrl: string, apiKey: string, path: string, requestTimeout: int)

  /** `new ApiClient(baseUrl, apiKey, path, requestTimeout)`; `None` is an
      omitted timeout. */
  function NewApiClient(baseUrl: string, apiKey: string, path: string, requestTimeout: Option<int>): (r: Result<Client, Exception>)
    ensures r.Err? <==> baseUrl == "" || apiKey == "" || path == ""
    ensures r.Err? ==> r.error == NewError(MissingParametersMessage)
    ensures r.Ok? ==> r.value.baseUrl == baseUrl && r.value.apiKey == apiKey && r.value.path == path
    ensures r.Ok? && requestTimeout.None? ==> r.value.requestTimeout == 10000
    ensures r.Ok? && requestTimeout.Some? ==> r.value.requestTimeout == requestTimeout.value
  {
    if baseUrl == "" || apiKey == "" || path == "" then Err(NewError(MissingParametersMessage))
    else Ok(Client(baseUrl, apiKey, path, requestTimeout.GetOr(DefaultRequestTimeout)))
  }

  datatype Method = GET | POST

  /** The two serialisations the client delegates to the platform,
      `new URLSearchParams(data).toString()` and `JSON.stringify(data)`; the
      model treats them as given functions. */
  datatype Codec = Codec(queryString: Value -> string, stringify: Value -> string)

  /** The arguments of the `fetch` call. */
  datatype HttpRequest = HttpRequest(url: string, verb: Method, headers: seq<(string, string)>, body: Option<string>)

  /** What `fetch` did: rejected, or answered with a status and a body that
      `response.json()` parsed or failed to parse. */
  datatype FetchOutcome = Rejected(error: Exception) | Responded(status: int, body: Result<Value, Exception>)

  /** A request and how it settled. */
  datatype Exchange = Exchange(request: HttpRequest, result: Result<Value, Exception>)

  const JsonHeaders: seq<(string, string)> := [("Content-Type", "application/json")]

  /** `response.ok`. */
  predicate IsOkStatus(status: int) {
    200 <= status <= 299
  }

  predicate IsAbort(e: Exception) {
    e.Error? && e.name == "AbortError"
  }

  /** `${baseUrl}${path}?apikey=${apiKey}`: the part of the URL every request shares. */
  function Endpoint(c: Client): string {
    c.baseUrl + c.path + "?apikey=" + c.apiKey
  }

  /** The URL and options `request(method, data)` hands to `fetch`. */
  function BuildRequest(c: Client, verb: Method, data: Value, codec: Codec): (req: HttpRequest)
    ensures req.verb == verb && req.headers == JsonHeaders
    ensures Endpoint(c) <= req.url
    ensures verb == GET && Truthy(data) ==> req.url == Endpoint(c) + "&" + codec.queryString(data)
    ensures verb == POST || !Truthy(data) ==> req.url == Endpoint(c)
    ensures req.body.Some? <==> verb == POST && Truthy(data)
    ensures req.body.Some? ==> req.body.value == codec.stringify(data)
  {
    var url := Endpoint(c) + (if verb == GET && Truthy(data) then "&" + codec.queryString(data) else "");
    var body := if verb == POST && Truthy(data) then Some(codec.stringify(data)) else None;
    HttpRequest(url, verb, JsonHeaders, body)
  }

  /** The `try` block: a non-ok status throws, otherwise the parsed body is returned. */
  function TryFetch(outcome: FetchOutcome): Result<Value, Exception> {
    match outcome
    case Rejected(e) => Err(e)
    case Responded(status, body) =>
      if !IsOkStatus(status) then Err(NewError("HTTP error! status: " + IntToString(status)))
      else body
  }

  /** The `catch` block: an abort becomes a timeout error, anything else is rethrown. */
  function Catch(c: Client, e: Exception): Exception {
    if IsAbort(e) then NewError("Request timed out after " + IntToString(c.requestTimeout) + "ms") else e
  }

  /** How `request` settles for a given `fetch` outcome. */
  function Settle(c: Client, outcome: FetchOutcome): (r: Result<Value, Exception>)
    ensures outcome.Responded? && IsOkStatus(outcome.status) && outcome.body.Ok? ==> r == Ok(outcome.body.value)
    ensures outcome.Responded? && !IsOkStatus(outcome.status) ==>
              r == Err(NewError("HTTP error! status: " + IntToString(outcome.status)))
    ensures outcome.Rejected? && IsAbort(outcome.error) ==>
              r == Err(NewError("Request timed out after " + IntToString(c.requestTimeout) + "ms"))
    ensures outcome.Rejected? && !IsAbort(outcome.error) ==> r == Err(outcome.error)
    ensures outcome.Responded? && IsOkStatus(outcome.status) && outcome.body.Err? && !IsAbort(outcome.body.error) ==>
              r == Err(outcome.body.error)
    ensures outcome.Responded? && IsOkStatus(outcome.status) && outcome.body.Err? && IsAbort(outcome.body.error) ==>
              r == Err(NewError("Request timed out after " + IntToString(c.requestTimeout) + "ms"))
  {
    match TryFetch(outcome)
    case Ok(v) => Ok(v)
    case Err(e) => Err(Catch(c, e))
  }

  /** `request(method, data)` against a `fetch` oracle. */
  function Request(c: Client, verb: Method, data: Value, codec: Codec, fetch: HttpRequest -> FetchOutcome): (x: Exchange)
    ensures x.request == BuildRequest(c, verb, data, codec)
    ensures x.result == Settle(c, fetch(x.request))
  {
    var req := BuildRequest(c, verb, data, codec);
    Exchange(req, Settle(c, fetch(req)))
  }

  /** `get(data)`: a GET whose data, when present, travels in the query string. */
  function Get(c: Client, data: Value, codec: Codec, fetch: HttpRequest -> FetchOutcome): (x: Exchange)
    ensures x.request.verb == GET && x.request.body.None?
    ensures Truthy(data) ==> x.request.url == Endpoint(c) + "&" + codec.queryString(data)
    ensures !Truthy(data) ==> x.request.url == Endpoint(c)
    ensures x.result == Settle(c, fetch(x.request))
  {
    Request(c, GET, data, codec, fetch)
  }

  /** `post(data)`: a POST whose data, when present, is the JSON body. */
  function Post(c: Client, data: Value, codec: Codec, fetch: HttpRequest -> FetchOutcome): (x: Exchange)
    ensures x.request.verb == POST && x.request.url == Endpoint(c)
    ensures Truthy(data) ==> x.request.body == Some(codec.stringify(data))
    ensures !Truthy(data) ==> x.request.body.None?
    ensures x.result == Settle(c, fetch(x.request))
  {
    Request(c, POST, data, codec, fetch)
  }

  /** A 500 answer rejects with exactly the message the client's tests expect. */
  lemma HttpError500(c: Client, body: Result<Value, Exception>)
    ensures Settle(c, Responded(500, body)) == Err(NewError("HTTP error! status: 500"))
  {
    assert NatToString(5) == "5";
    assert NatToString(50) == "50";
    assert IntToString(500) == "500";
    assert "HTTP error! status: " + "500" == "HTTP error! status: 500";
  }

  /** An abort with the default timeout reports 10000 ms. */
  lemma DefaultTimeoutMessage(baseUrl: string, apiKey: string, path: string, message: string)
    requires baseUrl != "" && apiKey != "" && path != ""
    ensures NewApiClient(baseUrl, apiKey, path, None).Ok?
    ensures Settle(NewApiClient(baseUrl, apiKey, path, None).value, Rejected(Error("AbortError", message)))
            == Err(NewError("Request timed out after 10000ms"))
  {
    assert NatToString(1) == "1";
    assert NatToString(10) == "10";
    assert NatToString(100) == "100";
    assert NatToString(1000) == "1000";
    assert IntToString(10000) == "10000";
    assert "Request timed out after " + "10000" + "ms" == "Request timed out after 10000ms";
  }

  /** Every request settles with a value only when `fetch` answered with an ok status. */
  lemma SuccessNeedsOkStatus(c: Client, outcome: FetchOutcome)
    ensures Settle(c, outcome).Ok? ==> outcome.Responded? && IsOkStatus(outcome.status) && outcome.body.Ok?
  {
  }

  /** The part of every request URL before the first `?` is `baseUrl + path`,
      provided neither contains a `?` of its own. */
  lemma RequestTargetsPath(c: Client, verb: Method, data: Value, codec: Codec)
    requires '?' !in c.baseUrl + c.path
    ensures Text.Split(BuildRequest(c, verb, data, codec).url, '?')[0] == c.baseUrl + c.path
  {
    var url := BuildRequest(c, verb, data, codec).url;
    var target := c.baseUrl + c.path;
    var query := url[|target|..];
    assert url == target + query;
    assert query[0] == '?';
    Text.SplitPrefix(target, query, '?');
    assert Text.Split(query, '?')[0] == "";
    assert target + "" == target;
  }
}

=== FILE: decimal.dfy ===
/** Decimal rendering of integers, as JavaScript's `String(n)` and template
    literals print them for integral numbers. It names array index keys
    (`Object.keys([a, b])` is `["0", "1"]`) and fills the HTTP status code and
    the timeout into the API client's error messages. */
module Decimal {

  predicate IsDigit(c: char) {
    '0' <= c <= '9'
  }

  function DigitChar(d: nat): (c: char)
    requires d < 10
    ensures IsDigit(c)
  {
    ('0' as int + d) as char
  }

  function DigitValue(c: char): (d: nat)
    requires IsDigit(c)
    ensures d < 10 && DigitChar(d) == c
  {
    c as int - '0' as int
  }

  /** The shortest decimal representation of `n`: digits only, no leading zero. */
  function NatToString(n: nat): (s: string)
    ensures |s| > 0
    ensures forall i | 0 <= i < |s| :: IsDigit(s[i])
    ensures n > 0 ==> s[0] != '0'
    decreases n
  {
    if n < 10 then [DigitChar(n)] else NatToString(n / 10) + [DigitChar(n % 10)]
  }

  /** `String(i)` for an integer `i`: a minus sign in front of negative values. */
  function IntToString(i: int): (s: string)
    ensures |s| > 0
    ensures i < 0 <==> s[0] == '-'
  {
    if i < 0 then "-" + NatToString(-i) else NatToString(i)
  }

  /** The value of a string of decimal digits, most significant first. */
  function ParseDigits(s: string): nat
    requires forall i | 0 <= i < |s| :: IsDigit(s[i])
  {
    if |s| == 0 then 0 else ParseDigits(s[..|s| - 1]) * 10 + DigitValue(s[|s| - 1])
  }

  /** Parsing undoes printing. */
  lemma {:induction false} ParseNatToString(n: nat)
    ensures ParseDigits(NatToString(n)) == n
    decreases n
  {
    var s := NatToString(n);
    if n >= 10 {
      var prefix := NatToString(n / 10);
      assert s[..|s| - 1] == prefix;
      ParseNatToString(n / 10);
    }
  }

  /** Distinct numbers print differently, so distinct array indices are distinct keys. */
  lemma NatToStringInjective(m: nat, n: nat)
    ensures NatToString(m) == NatToString(n) <==> m == n
  {
    if NatToString(m) == NatToString(n) {
      ParseNatToString(m);
      ParseNatToString(n);
    }
  }

  lemma IntToStringInjective(i: int, j: int)
    ensures IntToString(i) == IntToString(j) <==> i == j
  {
    if IntToString(i) == IntToString(j) {
      if i < 0 && j < 0 {
        assert IntToString(i)[1..] == NatToString(-i);
        assert IntToString(j)[1..] == NatToString(-j);
        NatToStringInjective(-i, -j);
      } else if i >= 0 && j >= 0 {
        NatToStringInjective(i, j);
      }
    }
  }
}

=== FILE: deep_equal.dfy ===
/** `deepEqual` from the schema hook (src/update-schema-hook/index.ts): the test
    that decides whether an existing Directus field differs from the one in the
    bundled schema. */
module DeepEquality {
  import opened Json

  /** `deepEqual(a, b)`: strict equality for primitives, and for two truthy
      objects (arrays included) an equal own-key count plus `deepEqual` of
      `a[key]` and `b[key]` for every own key of `a`. */
  function DeepEqual(a: Value, b: Value): bool
    decreases a
  {
    if StrictEquals(a, b) then true
    else if !Truthy(a) || !Truthy(b) then false
    else if TypeOf(a) != TypeOf(b) then false
    else if TypeOf(a) != ObjectType then StrictEquals(a, b)
    else if |Keys(a)| != |Keys(b)| then false
    else match a
      case Arr(es) => forall i | 0 <= i < |es| :: DeepEqual(es[i], Get(b, IndexKey(i)))
      case Obj(ps) => forall i | 0 <= i < |ps| :: DeepEqual(ps[i].val, Get(b, ps[i].key))
      case _ => false // `null` is the only other "object" and it is falsy
  }

  predicate IsObject(v: Value) {
    v.Arr? || v.Obj?
  }

  /** Every JSON value is deep-equal to itself; `NaN` is the exception the
      well-formedness condition rules out. */
  lemma {:induction false} DeepEqualReflexive(v: Value)
    requires WellFormed(v)
    ensures DeepEqual(v, v)
    decreases v
  {
    match v
    case Arr(es) =>
      forall i | 0 <= i < |es| ensures DeepEqual(es[i], Get(v, IndexKey(i))) {
        GetIndex(es, i);
        DeepEqualReflexive(es[i]);
      }
    case Obj(ps) =>
      forall i | 0 <= i < |ps| ensures DeepEqual(ps[i].val, Get(v, ps[i].key)) {
        LookupOwnKey(ps, i);
        DeepEqualReflexive(ps[i].val);
      }
    case _ =>
  }

  /** `NaN` is not deep-equal even to itself. */
  lemma NaNIsNotDeepEqual()
    ensures !DeepEqual(NaN, NaN)
  {
  }

  /** When a falsy value is involved, only strict equality can make the two equal. */
  lemma FalsyOperand(a: Value, b: Value)
    requires !Truthy(a) || !Truthy(b)
    ensures DeepEqual(a, b) <==> StrictEquals(a, b)
  {
  }

  /** As soon as one side is not an array or object, `deepEqual` is `===`. */
  lemma PrimitiveOperand(a: Value, b: Value)
    requires !IsObject(a) || !IsObject(b)
    ensures DeepEqual(a, b) <==> StrictEquals(a, b)
  {
  }

  /** Objects with different own-key counts are never deep-equal. */
  lemma KeyCountMismatch(a: Value, b: Value)
    requires IsObject(a) && IsObject(b)
    requires |Keys(a)| != |Keys(b)|
    ensures !DeepEqual(a, b)
  {
  }

  /** The plain object `{"0": es[0], "1": es[1], ...}` that mirrors an array. */
  function Indexed(es: seq<Value>): (ps: seq<Prop>)
    ensures |ps| == |es|
    ensures forall i | 0 <= i < |es| :: ps[i].key == IndexKey(i) && ps[i].val == es[i]
  {
    seq(|es|, i requires 0 <= i < |es| => Prop(IndexKey(i), es[i]))
  }

  lemma IndexedKeysDistinct(es: seq<Value>)
    ensures DistinctKeys(Indexed(es))
  {
    forall i, j | 0 <= i < j < |es| ensures IndexKey(i) != IndexKey(j) {
      Decimal.NatToStringInjective(i, j);
    }
  }

  /** `deepEqual` does not tell arrays from objects: an array and the object
      holding the same values under its index keys are equal, either way round. */
  lemma ArrayEqualsIndexedObject(es: seq<Value>)
    requires forall i | 0 <= i < |es| :: WellFormed(es[i])
    ensures DeepEqual(Arr(es), Obj(Indexed(es)))
    ensures DeepEqual(Obj(Indexed(es)), Arr(es))
  {
    var ps := Indexed(es);
    IndexedKeysDistinct(es);
    forall i | 0 <= i < |es|
      ensures DeepEqual(es[i], Get(Obj(ps), IndexKey(i)))
      ensures DeepEqual(ps[i].val, Get(Arr(es), ps[i].key))
    {
      LookupOwnKey(ps, i);
      GetIndex(es, i);
      DeepEqualReflexive(es[i]);
    }
  }

  /** `deepEqual` is not symmetric: `obj2[key]` also reads an array's
      `length`, which is not one of its own keys. */
  lemma DeepEqualNotSymmetric()
    ensures DeepEqual(Obj([Prop("length", Num(1.0))]), Arr([Str("x")]))
    ensures !DeepEqual(Arr([Str("x")]), Obj([Prop("length", Num(1.0))]))
  {
    var o := Obj([Prop("length", Num(1.0))]);
    var a := Arr([Str("x")]);
    assert Keys(a) == [IndexKey(0)];
    assert Get(a, "length") == Num(1.0);
    assert IndexKey(0) == "0";
    assert Get(o, IndexKey(0)) == Undefined;
  }
}

=== FILE: errors.dfy ===
/** Thrown values. Every `throw new Error(m)` of the source is `Error("Error", m)`;
    an aborted `fetch` rejects with an error named `AbortError`; `NonError`
    stands for a thrown object or primitive that is not an `Error` instance,
    and `Nullish` for a thrown `null` or `undefined`, whose `message` cannot
    even be read. */
module Errors {

  datatype Exception = Error(name: string, message: string) | NonError | Nullish

  /** `new Error(message)`. */
  function NewError(message: string): (e: Exception)
    ensures e.Error? && e.message == message
  {
    Error("Error", message)
  }
}

=== FILE: json.dfy ===
/** JavaScript values as they reach the schema hook: what `JSON.parse` and the
    Directus SDK produce, plus `undefined` (the value of a missing property) and
    `NaN`. Numbers are mathematical reals; `-0`, infinities and object identity
    are not represented (two objects are always distinct allocations). */
module Json {
  import opened Decimal

  datatype Value =
    | Undefined
    | Null
    | Bool(b: bool)
    | Num(n: real)
    | NaN
    | Str(s: string)
    | Arr(elems: seq<Value>)
    | Obj(props: seq<Prop>)

  /** One own enumerable property of a plain object, in insertion order. */
  datatype Prop = Prop(key: string, val: Value)

  /** The results of `typeof` that JSON-like values can produce. */
  datatype JsType = UndefinedType | BooleanType | NumberType | StringType | ObjectType

  function TypeOf(v: Value): JsType {
    match v
    case Undefined => UndefinedType
    case Bool(_) => BooleanType
    case Num(_) => NumberType
    case NaN => NumberType
    case Str(_) => StringType
    case _ => ObjectType // `typeof null` is "object", as are arrays
  }

  /** JavaScript truthiness: `undefined`, `null`, `false`, `0`, `NaN` and `""` are falsy. */
  predicate Truthy(v: Value) {
    match v
    case Undefined => false
    case Null => false
    case Bool(b) => b
    case Num(n) => n != 0.0
    case NaN => false
    case Str(s) => |s| > 0
    case _ => true
  }

  /** `a === b`. `NaN` equals nothing, and two arrays or objects are never the
      same reference here. */
  predicate StrictEquals(a: Value, b: Value) {
    match (a, b)
    case (Undefined, Undefined) => true
    case (Null, Null) => true
    case (Bool(x), Bool(y)) => x == y
    case (Num(x), Num(y)) => x == y
    case (Str(x), Str(y)) => x == y
    case _ => false
  }

  /** The property name of array position `i`. */
  function IndexKey(i: nat): string {
    NatToString(i)
  }

  /** `Object.keys(v)` for arrays and plain objects. */
  function Keys(v: Value): (keys: seq<string>)
    ensures v.Arr? ==> |keys| == |v.elems|
    ensures v.Obj? ==> |keys| == |v.props|
  {
    match v
    case Arr(es) => seq(|es|, i requires 0 <= i => IndexKey(i))
    case Obj(ps) => seq(|ps|, i requires 0 <= i < |ps| => ps[i].key)
    case _ => []
  }

  /** `v[key]`: an own property, an array element, or the `length` of an
      array or string; `undefined` otherwise. Members inherited from a
      prototype are not represented. */
  function Get(v: Value, key: string): Value {
    match v
    case Arr(es) => if key == "length" then Num(|es| as real) else ElementAt(es, key, 0)
    case Obj(ps) => Lookup(ps, key)
    case Str(s) => if key == "length" then Num(|s| as real) else Undefined
    case _ => Undefined
  }

  /** The first property named `key`, or `undefined`. */
  function Lookup(ps: seq<Prop>, key: string): (r: Value)
    ensures (forall i | 0 <= i < |ps| :: ps[i].key != key) ==> r == Undefined
  {
    if |ps| == 0 then Undefined
    else if ps[0].key == key then ps[0].val
    else Lookup(ps[1..], key)
  }

  /** The element whose index key, from position `from` on, is `key`. */
  function ElementAt(es: seq<Value>, key: string, from: nat): Value
    decreases |es| - from
  {
    if from >= |es| then Undefined
    else if IndexKey(from) == key then es[from]
    else ElementAt(es, key, from + 1)
  }

  predicate DistinctKeys(ps: seq<Prop>) {
    forall i, j | 0 <= i < j < |ps| :: ps[i].key != ps[j].key
  }

  /** What `JSON.parse` can produce: object keys are distinct and no `NaN` occurs. */
  predicate WellFormed(v: Value)
    decreases v
  {
    match v
    case NaN => false
    case Arr(es) => forall i | 0 <= i < |es| :: WellFormed(es[i])
    case Obj(ps) => DistinctKeys(ps) && forall i | 0 <= i < |ps| :: WellFormed(ps[i].val)
    case _ => true
  }

  /** A property of an object with distinct keys is found by its own name. */
  lemma {:induction false} LookupOwnKey(ps: seq<Prop>, i: nat)
    requires i < |ps| && DistinctKeys(ps)
    ensures Lookup(ps, ps[i].key) == ps[i].val
    decreases i
  {
    if i > 0 {
      assert ps[0].key != ps[i].key;
      assert DistinctKeys(ps[1..]) by {
        forall a, b | 0 <= a < b < |ps| - 1 ensures ps[1..][a].key != ps[1..][b].key {
          assert ps[1..][a] == ps[a + 1] && ps[1..][b] == ps[b + 1];
        }
      }
      LookupOwnKey(ps[1..], i - 1);
      assert ps[1..][i - 1] == ps[i];
    }
  }

  lemma {:induction false} ElementAtIndex(es: seq<Value>, i: nat, from: nat)
    requires from <= i < |es|
    ensures ElementAt(es, IndexKey(i), from) == es[i]
    decreases i - from
  {
    NatToStringInjective(from, i);
    if from < i {
      ElementAtIndex(es, i, from + 1);
    }
  }

  /** An index key never clashes with `length`: index keys are all digits. */
  lemma IndexKeyIsNotLength(i: nat)
    ensures IndexKey(i) != "length"
  {
    assert IsDigit(IndexKey(i)[0]);
  }

  /** `es[i]` is the element under the key `String(i)`. */
  lemma GetIndex(es: seq<Value>, i: nat)
    requires i < |es|
    ensures Get(Arr(es), IndexKey(i)) == es[i]
  {
    IndexKeyIsNotLength(i);
    ElementAtIndex(es, i, 0);
  }

  function KeySet(ps: seq<Prop>): set<string> {
    set i | 0 <= i < |ps| :: ps[i].key
  }

  lemma KeySetCons(p: Prop, ps: seq<Prop>)
    ensures KeySet([p] + ps) == {p.key} + KeySet(ps)
  {
    var qs := [p] + ps;
    assert qs[0] == p;
    forall k | k in KeySet(ps) ensures k in KeySet(qs) {
      var i :| 0 <= i < |ps| && ps[i].key == k;
      assert qs[i + 1] == ps[i];
    }
    forall k | k in KeySet(qs) ensures k in {p.key} + KeySet(ps) {
      var i :| 0 <= i < |qs| && qs[i].key == k;
      if i > 0 {
        assert qs[i] == ps[i - 1];
      }
    }
  }

  /** `o[key] = v` on an object with properties `ps`: an existing property
      keeps its place and takes the new value, a new one goes last. */
  function Assign(ps: seq<Prop>, key: string, v: Value): (r: seq<Prop>)
    ensures Lookup(r, key) == v
    ensures forall k | k != key :: Lookup(r, k) == Lookup(ps, k)
    ensures KeySet(r) == KeySet(ps) + {key}
    ensures key !in KeySet(ps) ==> r == ps + [Prop(key, v)]
    decreases |ps|
  {
    if |ps| == 0 then [Prop(key, v)]
    else
      assert ps == [ps[0]] + ps[1..];
      KeySetCons(ps[0], ps[1..]);
      if ps[0].key == key then
        KeySetCons(Prop(key, v), ps[1..]);
        [Prop(key, v)] + ps[1..]
      else
        var rest := Assign(ps[1..], key, v);
        KeySetCons(ps[0], rest);
        [ps[0]] + rest
  }

  /** The first key of a distinct-keyed object does not occur in the rest. */
  lemma HeadKeyNotInTail(ps: seq<Prop>)
    requires |ps| > 0 && DistinctKeys(ps)
    ensures DistinctKeys(ps[1..])
    ensures ps[0].key !in KeySet(ps[1..])
  {
    forall i | 0 <= i < |ps[1..]| ensures ps[1..][i].key != ps[0].key {
      assert ps[1..][i] == ps[i + 1];
    }
  }

  /** A property whose key is new keeps keys distinct. */
  lemma DistinctCons(p: Prop, ps: seq<Prop>)
    requires DistinctKeys(ps) && p.key !in KeySet(ps)
    ensures DistinctKeys([p] + ps)
  {
    var qs := [p] + ps;
    forall i, j | 0 <= i < j < |qs| ensures qs[i].key != qs[j].key {
      assert qs[j] == ps[j - 1];
      if i > 0 {
        assert qs[i] == ps[i - 1];
      } else {
        assert ps[j - 1].key in KeySet(ps);
      }
    }
  }

  /** Assignment keeps an object's keys distinct. */
  lemma {:induction false} AssignDistinct(ps: seq<Prop>, key: string, v: Value)
    requires DistinctKeys(ps)
    ensures DistinctKeys(Assign(ps, key, v))
    decreases |ps|
  {
    if |ps| > 0 {
      HeadKeyNotInTail(ps);
      if ps[0].key == key {
        assert Assign(ps, key, v) == [Prop(key, v)] + ps[1..];
        DistinctCons(Prop(key, v), ps[1..]);
      } else {
        AssignDistinct(ps[1..], key, v);
        var rest := Assign(ps[1..], key, v);
        assert KeySet(rest) == KeySet(ps[1..]) + {key};
        assert Assign(ps, key, v) == [ps[0]] + rest;
        DistinctCons(ps[0], rest);
      }
    }
  }

  /** Assigning the value a distinct-keyed object already holds changes nothing. */
  lemma {:induction false} AssignPresent(ps: seq<Prop>, key: string)
    requires DistinctKeys(ps) && key in KeySet(ps)
    ensures Assign(ps, key, Lookup(ps, key)) == ps
    decreases |ps|
  {
    if ps[0].key != key {
      assert ps == [ps[0]] + ps[1..];
      KeySetCons(ps[0], ps[1..]);
      AssignPresent(ps[1..], key);
    }
  }

  /** A second assignment of the same value to the same key changes nothing. */
  lemma {:induction false} AssignTwice(ps: seq<Prop>, key: string, v: Value)
    ensures Assign(Assign(ps, key, v), key, v) == Assign(ps, key, v)
    decreases |ps|
  {
    if |ps| > 0 && ps[0].key != key {
      AssignTwice(ps[1..], key, v);
    }
  }
}

=== FILE: retry.dfy ===
/** `withRetry` from the schema hook (src/update-schema-hook/index.ts): call an
    asynchronous function up to `retries` times, waiting longer after each
    failure. The function is an oracle giving the outcome of each attempt, and
    the waits are returned instead of slept. */
module Retry {
  import opened Wrappers

  /** What one call of `fn` did. */
  datatype Attempt<+T, +E> = Returned(value: T) | Threw(error: E)

  /** What `withRetry` settles with. `lastError` is `None` when no attempt ran:
      `throw lastError` then throws `undefined`. */
  datatype RetryOutcome<+T, +E> = Resolved(value: T) | Rejected(lastError: Option<E>)

  /** The defaults of `withRetry`'s parameters. */
  const DefaultRetries: int := 5
  const DefaultDelayMs: int := 2000

  /** The outcome of the attempts `i`, `i + 1`, ... below `retries`, given the
      error of the attempt before `i`. */
  function RetryFrom<T, E>(fn: nat -> Attempt<T, E>, retries: int, i: nat, last: Option<E>): RetryOutcome<T, E>
    decreases retries - i
  {
    if i >= retries then Rejected(last)
    else match fn(i)
      case Returned(v) => Resolved(v)
      case Threw(e) => RetryFrom(fn, retries, i + 1, Some(e))
  }

  /** The outcome of `withRetry(fn, retries, _)`, without the waits. */
  function Retried<T, E>(fn: nat -> Attempt<T, E>, retries: int): RetryOutcome<T, E> {
    RetryFrom(fn, retries, 0, None)
  }

  /** `withRetry(fn, retries, delayMs)`. `calls` counts the invocations of
      `fn`; `waits[i]` is the delay slept after the failed attempt `i`. */
  method WithRetry<T, E>(fn: nat -> Attempt<T, E>, retries: int, delayMs: int)
    returns (outcome: RetryOutcome<T, E>, calls: nat, waits: seq<int>)
    ensures outcome == Retried(fn, retries)
    ensures calls <= if retries > 0 then retries else 0
    ensures forall j | 0 <= j < calls - 1 :: fn(j).Threw?
    ensures outcome.Resolved? <==> calls > 0 && fn(calls - 1).Returned?
    ensures outcome.Resolved? ==> calls > 0 && outcome.value == fn(calls - 1).value
    ensures outcome.Rejected? ==> calls == (if retries > 0 then retries else 0)
    ensures outcome.Rejected? ==> forall j | 0 <= j < calls :: fn(j).Threw?
    ensures outcome.Rejected? ==>
              outcome.lastError == if calls > 0 then Some(fn(calls - 1).error) else None
    ensures |waits| == if calls > 0 then calls - 1 else 0
    ensures forall i | 0 <= i < |waits| :: waits[i] == delayMs * (i + 1)
  {
    var lastError: Option<E> := None;
    calls := 0;
    waits := [];
    var i: nat := 0;
    while i < retries
      invariant retries > 0 ==> i <= retries
      invariant retries <= 0 ==> i == 0
      invariant calls == i
      invariant forall j | 0 <= j < i :: fn(j).Threw?
      invariant lastError == if i > 0 then Some(fn(i - 1).error) else None
      invariant RetryFrom(fn, retries, i, lastError) == Retried(fn, retries)
      invariant |waits| == if i > 0 && i == retries then i - 1 else i
      invariant forall k | 0 <= k < |waits| :: waits[k] == delayMs * (k + 1)
    {
      calls := calls + 1;
      match fn(i)
      case Returned(v) => {
        outcome := Resolved(v);
        return;
      }
      case Threw(e) => {
        lastError := Some(e);
        if i < retries - 1 {
          waits := waits + [delayMs * (i + 1)];
        }
      }
      i := i + 1;
    }
    outcome := Rejected(lastError);
  }
}

=== FILE: rota.dfy ===
/** The `here_routing` records the routing service reads and updates, and the
    store that holds them: a map from id to record, changed only through
    `updateOne(id, patch)`. */
module Rotas {
  import opened Wrappers

  /** One row of `here_routing`: the columns of `ItemsHereRouting` plus the
      ones the service also reads (`return`, `spans`, `currency`,
      `routingMode`, `vehicle_speed_cap`) and writes (`response`, `error`).
      The service reads rows with `fields: ["*"]`, so every column is present
      and `None` is a `null` column. */
  datatype Rota = Rota(
    id: string,
    status: Option<string>,
    sort: Option<int>,
    userCreated: Option<string>,
    dateCreated: Option<string>,
    userUpdated: Option<string>,
    dateUpdated: Option<string>,
    httpMethod: Option<string>,
    transportMode: Option<string>,
    origin: Option<string>,
    destination: Option<string>,
    returnAttributes: Option<seq<string>>,
    spans: Option<seq<string>>,
    currency: Option<string>,
    routingMode: Option<string>,
    vehicleSpeedCap: Option<real>,
    response: Option<string>,
    error: Option<string>)

  /** The object passed to `updateOne`: the columns it sets, `None` for the
      ones it leaves alone. */
  datatype Patch = Patch(status: Option<string>, response: Option<string>, error: Option<string>)

  datatype Update = Update(id: string, patch: Patch)

  type Store = map<string, Rota>

  /** The record after a patch: only the columns the patch names change. */
  function ApplyPatch(r: Rota, p: Patch): (r': Rota)
    ensures r' == r.(status := r'.status, response := r'.response, error := r'.error)
    ensures r'.status == if p.status.Some? then p.status else r.status
    ensures r'.response == if p.response.Some? then p.response else r.response
    ensures r'.error == if p.error.Some? then p.error else r.error
  {
    r.(status := if p.status.Some? then p.status else r.status,
       response := if p.response.Some? then p.response else r.response,
       error := if p.error.Some? then p.error else r.error)
  }

  /** `updateOne(u.id, u.patch)`; an id the store does not hold is left alone. */
  function ApplyUpdate(store: Store, u: Update): (s: Store)
    ensures s.Keys == store.Keys
    ensures forall id | id in store && id != u.id :: s[id] == store[id]
    ensures u.id in store ==> s[u.id] == ApplyPatch(store[u.id], u.patch)
  {
    if u.id in store then store[u.id := ApplyPatch(store[u.id], u.patch)] else store
  }

  /** A sequence of updates, in order. */
  function ApplyAll(store: Store, us: seq<Update>): Store
    decreases |us|
  {
    if |us| == 0 then store else ApplyAll(ApplyUpdate(store, us[0]), us[1..])
  }

  /** Applying two batches of updates is applying their concatenation. */
  lemma {:induction false} ApplyAllConcat(store: Store, us: seq<Update>, vs: seq<Update>)
    ensures ApplyAll(store, us + vs) == ApplyAll(ApplyAll(store, us), vs)
    decreases |us|
  {
    if |us| > 0 {
      assert (us + vs)[1..] == us[1..] + vs;
      ApplyAllConcat(ApplyUpdate(store, us[0]), us[1..], vs);
    } else {
      assert us + vs == vs;
    }
  }

  /** The record `r` after the patches of `us` addressed to `id`. */
  function PatchAll(r: Rota, us: seq<Update>, id: string): Rota
    decreases |us|
  {
    if |us| == 0 then r
    else PatchAll(if us[0].id == id then ApplyPatch(r, us[0].patch) else r, us[1..], id)
  }

  /** Updates never add or remove records. */
  lemma {:induction false} ApplyAllKeys(store: Store, us: seq<Update>)
    ensures ApplyAll(store, us).Keys == store.Keys
    decreases |us|
  {
    if |us| > 0 {
      ApplyAllKeys(ApplyUpdate(store, us[0]), us[1..]);
    }
  }

  /** Each record evolves on its own: its final state depends only on the
      updates addressed to it. */
  lemma {:induction false} ApplyAllPointwise(store: Store, us: seq<Update>, id: string)
    requires id in store
    ensures id in ApplyAll(store, us)
    ensures ApplyAll(store, us)[id] == PatchAll(store[id], us, id)
    decreases |us|
  {
    if |us| > 0 {
      var s1 := ApplyUpdate(store, us[0]);
      ApplyAllPointwise(s1, us[1..], id);
    }
  }

  /** Patches addressed to other records leave a record as it is. */
  lemma {:induction false} PatchAllOthers(r: Rota, us: seq<Update>, id: string)
    requires forall i | 0 <= i < |us| :: us[i].id != id
    ensures PatchAll(r, us, id) == r
    decreases |us|
  {
    if |us| > 0 {
      PatchAllOthers(r, us[1..], id);
    }
  }

  lemma {:induction false} PatchAllConcat(r: Rota, us: seq<Update>, vs: seq<Update>, id: string)
    ensures PatchAll(r, us + vs, id) == PatchAll(PatchAll(r, us, id), vs, id)
    decreases |us|
  {
    if |us| > 0 {
      assert (us + vs)[1..] == us[1..] + vs;
      PatchAllConcat(if us[0].id == id then ApplyPatch(r, us[0].patch) else r, us[1..], vs, id);
    } else {
      assert us + vs == vs;
    }
  }

  /** Records no update addresses are left exactly as they were. */
  lemma ApplyAllUntouched(store: Store, us: seq<Update>, id: string)
    requires id in store
    requires forall i | 0 <= i < |us| :: us[i].id != id
    ensures id in ApplyAll(store, us) && ApplyAll(store, us)[id] == store[id]
  {
    ApplyAllPointwise(store, us, id);
    PatchAllOthers(store[id], us, id);
  }
}

=== FILE: routing_hook.dfy ===
/** The update filter the routing hook registers: an update of a route that
    does not set the status to `draft` is forced to `published`. */
module RoutingHook {
  import opened Json

  const DraftValue: Value := Str("draft")
  const PublishedValue: Value := Str("published")

  /** The filter body. `input.status == "draft"` is a loose comparison with a
      string; for every primitive operand it holds exactly when the operand is
      the string `draft`. */
  function FilterUpdate(input: seq<Prop>): (output: seq<Prop>)
    ensures Lookup(input, "status") == DraftValue ==> output == input
    ensures Lookup(input, "status") != DraftValue ==> Lookup(output, "status") == PublishedValue
    ensures Lookup(output, "status") in {DraftValue, PublishedValue}
    ensures forall k | k != "status" :: Lookup(output, k) == Lookup(input, k)
    ensures KeySet(output) == KeySet(input) + {"status"} || output == input
  {
    if Lookup(input, "status") == DraftValue then input
    else Assign(input, "status", PublishedValue)
  }

  /** Filtering twice is filtering once. */
  lemma FilterUpdateIdempotent(input: seq<Prop>)
    ensures FilterUpdate(FilterUpdate(input)) == FilterUpdate(input)
  {
    if Lookup(input, "status") != DraftValue {
      AssignTwice(input, "status", PublishedValue);
    }
  }

  /** The filter leaves a payload alone exactly when it already carries a
      status the filter would produce. */
  lemma FilterUpdateFixedPoints(input: seq<Prop>)
    requires DistinctKeys(input)
    ensures FilterUpdate(input) == input <==> Lookup(input, "status") in {DraftValue, PublishedValue}
  {
    var status := Lookup(input, "status");
    if status == PublishedValue {
      LookupPresent(input, "status");
      AssignPresent(input, "status");
    }
  }

  /** A property that is not undefined is present. */
  lemma {:induction false} LookupPresent(ps: seq<Prop>, key: string)
    requires Lookup(ps, key) != Undefined
    ensures key in KeySet(ps)
    decreases |ps|
  {
    if ps[0].key != key {
      LookupPresent(ps[1..], key);
      assert ps == [ps[0]] + ps[1..];
      KeySetCons(ps[0], ps[1..]);
    } else {
      assert ps[0].key in KeySet(ps);
    }
  }

  /** Directus names the update event of a collection `<collection>.items.update`. */
  function UpdateEvent(collection: string): string {
    collection + ".items.update"
  }

  /** The collection the routing service reads and writes. */
  const RoutingCollection := "here_routing"

  /** The event name the hook subscribes to as written. */
  const SubscribedEventAsWritten := "here-routing.items.update"

  /** The event name that matches the routing collection. */
  const SubscribedEvent := UpdateEvent(RoutingCollection)

  /** The payload Directus stores for an update of `collection`, given the
      event name the filter is registered on. */
  function StoredPayload(subscribed: string, collection: string, input: seq<Prop>): (stored: seq<Prop>)
    ensures subscribed == UpdateEvent(collection) ==> stored == FilterUpdate(input)
    ensures subscribed != UpdateEvent(collection) ==> stored == input
  {
    if subscribed == UpdateEvent(collection) then FilterUpdate(input) else input
  }

  /** As written, the filter never sees an update of the routing collection:
      an update that archives a route is stored unchanged. */
  lemma FilterMissesRoutingUpdates()
    ensures SubscribedEventAsWritten != UpdateEvent(RoutingCollection)
    ensures var archive := [Prop("status", Str("archived"))];
            Lookup(StoredPayload(SubscribedEventAsWritten, RoutingCollection, archive), "status") == Str("archived")
  {
    assert SubscribedEventAsWritten[4] != UpdateEvent(RoutingCollection)[4];
  }

  /** Registered on the collection's own event, every stored update of a
      route has status `draft` or `published`. */
  lemma FilterGuardsRoutingUpdates(input: seq<Prop>)
    ensures Lookup(StoredPayload(SubscribedEvent, RoutingCollection, input), "status") in {DraftValue, PublishedValue}
  {
  }
}

=== FILE: routing_service.dfy ===
/** `RoutingService` (src/routing-service/routing-service.ts): one sync cycle
    queries every `draft` record and, record by record, validates it, builds
    the HERE payload, calls the API and stores the reply, or stores the error.
    The store is a map, the query answer and the `fetch` outcomes are oracles,
    and so is the success or failure of each `updateOne`. */
module RoutingService {
  import opened Wrappers
  import opened Errors
  import opened Json
  import opened Text
  import opened Status
  import opened Rotas
  import opened ApiClient

  /** The environment variables the constructor reads. */
  datatype Env = Env(baseUrl: Option<string>, routesPath: Option<string>, apiToken: Option<string>)

  datatype Service = Service(apiToken: string, client: Client)

  const MissingEnvironmentMessage: string :=
    "Variáveis de ambiente obrigatórias (HERE_API_BASE_URL, HERE_API_ROUTES_PATH, HERE_API_TOKEN) não foram definidas."

  /** A truthy string: set and not empty. */
  predicate Present(v: Option<string>) {
    v.Some? && v.value != ""
  }

  /** `new RoutingService(ctx, opts)`: fails unless all three variables are
      set, and then builds the client with the default timeout. */
  function NewRoutingService(env: Env): (r: Result<Service, Exception>)
    ensures r.Ok? <==> Present(env.baseUrl) && Present(env.routesPath) && Present(env.apiToken)
    ensures r.Err? ==> r.error == NewError(MissingEnvironmentMessage)
    ensures r.Ok? ==> r.value.apiToken == env.apiToken.value
    ensures r.Ok? ==> r.value.client == Client(env.baseUrl.value, env.apiToken.value, env.routesPath.value, DefaultRequestTimeout)
  {
    if !Present(env.baseUrl) || !Present(env.routesPath) || !Present(env.apiToken) then
      Err(NewError(MissingEnvironmentMessage))
    else match NewApiClient(env.baseUrl.value, env.apiToken.value, env.routesPath.value, None)
      case Ok(c) => Ok(Service(env.apiToken.value, c))
      case Err(e) => Err(e) // the constructor has already checked what the client checks
  }

  /** `{ fields, limit, filter: { status: { _eq } } }`. */
  datatype Query = Query(fields: seq<string>, limit: int, statusEq: string)

  /** What `obterRotasPorStatus` answered, the `_rotas` it leaves, and the
      query it sent to the store, if any. */
  datatype CacheRead = CacheRead(result: Result<seq<Rota>, Exception>, cache: seq<Rota>, issued: Option<Query>)

  /** `obterRotasPorStatus(status)` given the cached `_rotas`. A non-empty
      cache is returned as is, whatever status is asked for. */
  function ObterRotasPorStatus(cache: seq<Rota>, status: string,
                               readByQuery: Query -> Result<seq<Rota>, Exception>): (r: CacheRead)
    ensures |cache| > 0 ==> r == CacheRead(Ok(cache), cache, None)
    ensures |cache| == 0 ==> r.issued == Some(Query(["*"], -1, status))
    ensures |cache| == 0 ==> r.result == readByQuery(Query(["*"], -1, status))
    ensures |cache| == 0 && r.result.Ok? ==> r.cache == r.result.value
    ensures |cache| == 0 && r.result.Err? ==> r.cache == []
  {
    if |cache| > 0 then CacheRead(Ok(cache), cache, None)
    else
      var query := Query(["*"], -1, status);
      match readByQuery(query)
      case Ok(rotas) => CacheRead(Ok(rotas), rotas, Some(query))
      case Err(e) => CacheRead(Err(e), cache, Some(query))
  }

  /** Once a read has filled the cache, a second read issues no query and
      answers the same list, whatever the store would now answer. */
  lemma CacheServesRepeatedRead(cache: seq<Rota>, status: string, status2: string,
                                readByQuery: Query -> Result<seq<Rota>, Exception>,
                                readByQuery2: Query -> Result<seq<Rota>, Exception>)
    requires ObterRotasPorStatus(cache, status, readByQuery).result.Ok?
    requires |ObterRotasPorStatus(cache, status, readByQuery).result.value| > 0
    ensures var first := ObterRotasPorStatus(cache, status, readByQuery);
            var second := ObterRotasPorStatus(first.cache, status2, readByQuery2);
            && second.issued.None?
            && second.result == first.result
            && second.cache == first.cache
  {
  }

  function StringOrNull(v: Option<string>): Value {
    match v
    case Some(s) => Str(s)
    case None => Null
  }

  function NumberOrNull(v: Option<real>): Value {
    match v
    case Some(x) => Num(x)
    case None => Null
  }

  /** `list ? list.join(",") : ""`. */
  function JoinedOrEmpty(v: Option<seq<string>>): string {
    match v
    case Some(xs) => Join(xs, ',')
    case None => ""
  }

  const PayloadKeys: seq<string> :=
    ["transportMode", "origin", "destination", "return", "currency", "spans", "routingMode", "vehicle[speedCap]"]

  /** The payload literal of `sincronizar`, in its key order. */
  function Payload(r: Rota): (ps: seq<Prop>)
    ensures |ps| == |PayloadKeys|
    ensures forall i | 0 <= i < |ps| :: ps[i].key == PayloadKeys[i]
  {
    [ Prop("transportMode", StringOrNull(r.transportMode)),
      Prop("origin", StringOrNull(r.origin)),
      Prop("destination", StringOrNull(r.destination)),
      Prop("return", Str(JoinedOrEmpty(r.returnAttributes))),
      Prop("currency", StringOrNull(r.currency)),
      Prop("spans", Str(JoinedOrEmpty(r.spans))),
      Prop("routingMode", StringOrNull(r.routingMode)),
      Prop("vehicle[speedCap]", NumberOrNull(r.vehicleSpeedCap)) ]
  }

  /** `{ ...payload, apikey: this.apiToken }`. */
  function Params(svc: Service, payload: seq<Prop>): Value {
    Obj(payload + [Prop("apikey", Str(svc.apiToken))])
  }

  /** The parameters sent for a record have distinct keys: `apikey` is not
      one of the payload's. */
  lemma ParamsDistinct(svc: Service, r: Rota)
    ensures DistinctKeys(Params(svc, Payload(r)).props)
  {
    var ps := Payload(r) + [Prop("apikey", Str(svc.apiToken))];
    forall i, j | 0 <= i < j < |ps| ensures ps[i].key != ps[j].key {
      assert ps[i].key == (PayloadKeys + ["apikey"])[i];
      assert ps[j].key == (PayloadKeys + ["apikey"])[j];
    }
  }

  /** The parameters sent for a record carry the token under `apikey`, the
      joined lists under `return` and `spans`, and the endpoints unchanged. */
  lemma ParamsContents(svc: Service, r: Rota)
    ensures Json.Get(Params(svc, Payload(r)), "apikey") == Str(svc.apiToken)
    ensures Json.Get(Params(svc, Payload(r)), "return") == Str(JoinedOrEmpty(r.returnAttributes))
    ensures Json.Get(Params(svc, Payload(r)), "spans") == Str(JoinedOrEmpty(r.spans))
    ensures Json.Get(Params(svc, Payload(r)), "origin") == StringOrNull(r.origin)
    ensures Json.Get(Params(svc, Payload(r)), "destination") == StringOrNull(r.destination)
  {
    var ps := Params(svc, Payload(r)).props;
    ParamsDistinct(svc, r);
    LookupOwnKey(ps, 8);
    LookupOwnKey(ps, 3);
    LookupOwnKey(ps, 5);
    LookupOwnKey(ps, 1);
    LookupOwnKey(ps, 2);
  }

  /** The remaining columns of the record travel unchanged under their
      payload keys (`null` when the column is absent). */
  lemma ParamsColumns(svc: Service, r: Rota)
    ensures Json.Get(Params(svc, Payload(r)), "transportMode") == StringOrNull(r.transportMode)
    ensures Json.Get(Params(svc, Payload(r)), "currency") == StringOrNull(r.currency)
    ensures Json.Get(Params(svc, Payload(r)), "routingMode") == StringOrNull(r.routingMode)
    ensures Json.Get(Params(svc, Payload(r)), "vehicle[speedCap]") == NumberOrNull(r.vehicleSpeedCap)
  {
    var ps := Params(svc, Payload(r)).props;
    ParamsDistinct(svc, r);
    LookupOwnKey(ps, 0);
    LookupOwnKey(ps, 4);
    LookupOwnKey(ps, 6);
    LookupOwnKey(ps, 7);
  }

  /** An attribute list survives the trip through the payload: splitting the
      `return` (or `spans`) parameter at commas gives it back, as long as it
      is not empty and no attribute contains a comma. */
  lemma PayloadListRoundTrip(xs: seq<string>)
    requires |xs| > 0
    requires forall i | 0 <= i < |xs| :: ',' !in xs[i]
    ensures Split(JoinedOrEmpty(Some(xs)), ',') == xs
  {
    SplitJoin(xs, ',');
  }

  /** `rota.method?.toUpperCase() || "GET"`. */
  function ResolveMethod(m: Option<string>): (r: string)
    ensures |r| > 0
    ensures m.None? || m == Some("") ==> r == "GET"
    ensures m.Some? && m.value != "" ==> r == ToUpperCase(m.value)
  {
    if m.Some? && m.value != "" then ToUpperCase(m.value) else "GET"
  }

  /** A non-empty method is upper-cased letter by letter and keeps its length. */
  lemma ResolveMethodLetters(m: Option<string>)
    requires m.Some? && m.value != ""
    ensures |ResolveMethod(m)| == |m.value|
    ensures forall i | 0 <= i < |m.value| :: ResolveMethod(m)[i] == UpperChar(m.value[i])
  {
  }

  /** The resolved method is upper case: resolving it again changes nothing. */
  lemma ResolveMethodUpperCase(m: Option<string>)
    ensures forall i | 0 <= i < |ResolveMethod(m)| :: !IsLowerAscii(ResolveMethod(m)[i])
    ensures ResolveMethod(Some(ResolveMethod(m))) == ResolveMethod(m)
  {
    if m.Some? && m.value != "" {
      ToUpperCaseIdempotent(m.value);
    }
  }

  lemma ResolveMethodExamples()
    ensures ResolveMethod(None) == "GET"
    ensures ResolveMethod(Some("")) == "GET"
    ensures ResolveMethod(Some("post")) == "POST"
    ensures ResolveMethod(Some("Get")) == "GET"
    ensures ResolveMethod(Some("put")) == "PUT"
  {
  }

  /** The call `send2Here` made, if any, and how it settled. */
  datatype Sent = Sent(request: Option<HttpRequest>, result: Result<Value, Exception>)

  /** How `send2Here` rewraps an error of the client. */
  function RequestError(e: Exception): Exception {
    if e.Error? then NewError("Erro na requisição: " + e.message) else NewError("Erro desconhecido na requisição")
  }

  /** `send2Here(metodo, payload)`. */
  function Send2Here(svc: Service, metodo: string, payload: seq<Prop>, codec: Codec,
                     fetch: HttpRequest -> FetchOutcome): (s: Sent)
    ensures metodo != "GET" && metodo != "POST" ==>
              s == Sent(None, Err(NewError("Método HTTP não suportado: " + metodo)))
    ensures metodo == "GET" ==> s.request == Some(ApiClient.Get(svc.client, Params(svc, payload), codec, fetch).request)
    ensures metodo == "POST" ==> s.request == Some(Post(svc.client, Params(svc, payload), codec, fetch).request)
    ensures s.request.Some? ==>
              var settled := Settle(svc.client, fetch(s.request.value));
              && (settled.Ok? ==> s.result == settled)
              && (settled.Err? && settled.error.Error? ==>
                    s.result == Err(NewError("Erro na requisição: " + settled.error.message)))
              && (settled.Err? && !settled.error.Error? ==>
                    s.result == Err(NewError("Erro desconhecido na requisição")))
  {
    if metodo != "GET" && metodo != "POST" then
      Sent(None, Err(NewError("Método HTTP não suportado: " + metodo)))
    else
      var params := Params(svc, payload);
      var x := if metodo == "POST" then Post(svc.client, params, codec, fetch) else ApiClient.Get(svc.client, params, codec, fetch);
      Sent(Some(x.request), match x.result case Ok(v) => Ok(v) case Err(e) => Err(RequestError(e)))
  }

  /** `!rota.origin || !rota.destination` fails the record. */
  predicate HasEndpoints(r: Rota) {
    Present(r.origin) && Present(r.destination)
  }

  function MissingEndpointsMessage(id: string): string {
    "Os campos 'origin' e 'destination' são obrigatórios para a rota " + id + "."
  }

  /** The message `gravarErro` stores for a caught value. */
  function ErrorMessage(e: Exception): string {
    if e.Error? then e.message else "Erro desconhecido"
  }

  /** The three `updateOne` calls a record can cause. */
  datatype WriteStep = ResponseWrite | StatusWrite | ErrorWrite

  function PublishPatch(response: string): Patch {
    Patch(Some(Nome(Publicado)), Some(response), None)
  }

  function StatusPatch(status: string): Patch {
    Patch(Some(status), None, None)
  }

  function ErrorPatch(message: string): Patch {
    Patch(None, None, Some(message))
  }

  /** One record's pass through the loop: the API call made, the updates the
      store accepted, and the exception that escaped the record's `catch`. */
  datatype RecordRun = RecordRun(request: Option<HttpRequest>, updates: seq<Update>, escaped: Option<Exception>)

  /** The record's `catch`: store the message, or let the store's error escape. */
  function Recover(id: string, request: Option<HttpRequest>, done: seq<Update>, e: Exception,
                   errorWrite: Option<Exception>): RecordRun {
    match errorWrite
    case Some(storeError) => RecordRun(request, done, Some(storeError))
    case None => RecordRun(request, done + [Update(id, ErrorPatch(ErrorMessage(e)))], None)
  }

  /** The first half of the loop body: the endpoint check, then `send2Here`
      with the record's payload and resolved method. */
  function Dispatch(svc: Service, r: Rota, codec: Codec, fetch: HttpRequest -> FetchOutcome): (sent: Sent)
    ensures !HasEndpoints(r) ==> sent == Sent(None, Err(NewError(MissingEndpointsMessage(r.id))))
  {
    if !HasEndpoints(r) then Sent(None, Err(NewError(MissingEndpointsMessage(r.id))))
    else Send2Here(svc, ResolveMethod(r.httpMethod), Payload(r), codec, fetch)
  }

  /** The second half: store the reply and the status, or the error.
      `failure(w)` is the error of the write `w`, if it fails. */
  function Conclude(id: string, sent: Sent, codec: Codec, failure: WriteStep -> Option<Exception>): (run: RecordRun)
    ensures run.request == sent.request
    ensures forall i | 0 <= i < |run.updates| :: run.updates[i].id == id
    ensures forall i | 0 <= i < |run.updates| ::
              run.updates[i].patch.status.None? || run.updates[i].patch.status == Some(Nome(Publicado))
    ensures run.escaped.Some? ==> run.escaped == failure(ErrorWrite)
  {
    match sent.result
    case Err(e) => Recover(id, sent.request, [], e, failure(ErrorWrite))
    case Ok(reply) =>
      var stored := Update(id, PublishPatch(codec.stringify(reply)));
      match failure(ResponseWrite)
      case Some(e) => Recover(id, sent.request, [], e, failure(ErrorWrite))
      case None =>
        match failure(StatusWrite)
        case Some(e) => Recover(id, sent.request, [stored], e, failure(ErrorWrite))
        case None => RecordRun(sent.request, [stored, Update(id, StatusPatch(Nome(Publicado)))], None)
  }

  /** The exception the record's `catch` receives, if any: the endpoint or
      request error, else the error of the response write, else that of the
      status write. */
  function Caught(sent: Sent, failure: WriteStep -> Option<Exception>): Option<Exception> {
    match sent.result
    case Err(e) => Some(e)
    case Ok(_) => if failure(ResponseWrite).Some? then failure(ResponseWrite) else failure(StatusWrite)
  }

  /** The record's `catch` in both directions: an error escapes exactly when
      something was caught and the error write then fails; when the error
      write succeeds, the last update stores the caught value's message. */
  lemma ConcludeCatch(id: string, sent: Sent, codec: Codec, failure: WriteStep -> Option<Exception>)
    ensures var run := Conclude(id, sent, codec, failure);
            && (run.escaped.Some? <==> Caught(sent, failure).Some? && failure(ErrorWrite).Some?)
            && (Caught(sent, failure).None? ==> run.escaped.None? && |run.updates| == 2)
            && (Caught(sent, failure).Some? && failure(ErrorWrite).None? ==>
                  && run.escaped.None?
                  && |run.updates| > 0
                  && run.updates[|run.updates| - 1] == Update(id, ErrorPatch(ErrorMessage(Caught(sent, failure).value))))
  {
  }

  /** A failed store write after a successful call is caught like any other
      error: an `Error` stores its message, any other value "Erro desconhecido". */
  lemma StoreWriteFailureStored(id: string, sent: Sent, codec: Codec, failure: WriteStep -> Option<Exception>)
    requires sent.result.Ok? && failure(ErrorWrite).None?
    ensures var run := Conclude(id, sent, codec, failure);
            var stored := Update(id, PublishPatch(codec.stringify(sent.result.value)));
            && (failure(ResponseWrite).Some? && !failure(ResponseWrite).value.Error? ==>
                  run == RecordRun(sent.request, [Update(id, ErrorPatch("Erro desconhecido"))], None))
            && (failure(ResponseWrite).None? && failure(StatusWrite).Some? && !failure(StatusWrite).value.Error? ==>
                  run == RecordRun(sent.request, [stored, Update(id, ErrorPatch("Erro desconhecido"))], None))
            && (failure(ResponseWrite).Some? && failure(ResponseWrite).value.Error? ==>
                  run == RecordRun(sent.request, [Update(id, ErrorPatch(failure(ResponseWrite).value.message))], None))
            && (failure(ResponseWrite).None? && failure(StatusWrite).Some? && failure(StatusWrite).value.Error? ==>
                  run == RecordRun(sent.request, [stored, Update(id, ErrorPatch(failure(StatusWrite).value.message))], None))
  {
  }

  /** The body of the loop of `sincronizar` for the record at position `k`.
      `fetch(k)` answers its API call and `storeFailure(k)(w)` is the error
      of its `updateOne` for `w`, if that fails. A pass writes only its own
      record, sets no status but `published`, and lets an error escape only
      when its error write fails. */
  function RunRecord(svc: Service, r: Rota, k: nat, codec: Codec,
                     fetch: nat -> HttpRequest -> FetchOutcome,
                     storeFailure: nat -> WriteStep -> Option<Exception>): (run: RecordRun)
    ensures forall i | 0 <= i < |run.updates| :: run.updates[i].id == r.id
    ensures forall i | 0 <= i < |run.updates| ::
              run.updates[i].patch.status.None? || run.updates[i].patch.status == Some(Nome(Publicado))
    ensures run.escaped.Some? ==> run.escaped == storeFailure(k)(ErrorWrite)
  {
    Conclude(r.id, Dispatch(svc, r, codec, fetch(k)), codec, storeFailure(k))
  }

  /** Record `k`'s pass catches an exception and then fails to store it. */
  predicate ErrorWriteFails(svc: Service, r: Rota, k: nat, codec: Codec,
                            fetch: nat -> HttpRequest -> FetchOutcome,
                            storeFailure: nat -> WriteStep -> Option<Exception>)
  {
    Caught(Dispatch(svc, r, codec, fetch(k)), storeFailure(k)).Some? && storeFailure(k)(ErrorWrite).Some?
  }

  /** An error escapes a record's pass exactly when its error write fails. */
  lemma RecordEscapes(svc: Service, r: Rota, k: nat, codec: Codec,
                      fetch: nat -> HttpRequest -> FetchOutcome,
                      storeFailure: nat -> WriteStep -> Option<Exception>)
    ensures RunRecord(svc, r, k, codec, fetch, storeFailure).escaped.Some?
            <==> ErrorWriteFails(svc, r, k, codec, fetch, storeFailure)
  {
    ConcludeCatch(r.id, Dispatch(svc, r, codec, fetch(k)), codec, storeFailure(k));
  }

  /** A record without `origin` or `destination` never reaches the API; the
      only column written is `error`, unless that write itself fails. */
  lemma MissingEndpointsOnlyWriteError(svc: Service, r: Rota, k: nat, codec: Codec,
                                       fetch: nat -> HttpRequest -> FetchOutcome,
                                       storeFailure: nat -> WriteStep -> Option<Exception>)
    requires !HasEndpoints(r)
    ensures RunRecord(svc, r, k, codec, fetch, storeFailure).request.None?
    ensures storeFailure(k)(ErrorWrite).None? ==>
              RunRecord(svc, r, k, codec, fetch, storeFailure)
                == RecordRun(None, [Update(r.id, ErrorPatch(MissingEndpointsMessage(r.id)))], None)
    ensures storeFailure(k)(ErrorWrite).Some? ==>
              RunRecord(svc, r, k, codec, fetch, storeFailure) == RecordRun(None, [], storeFailure(k)(ErrorWrite))
  {
  }

  /** The API is called exactly for records with both endpoints whose method
      resolves to GET or POST, with that verb, at the configured endpoint. */
  lemma RemoteCallCondition(svc: Service, r: Rota, k: nat, codec: Codec,
                            fetch: nat -> HttpRequest -> FetchOutcome,
                            storeFailure: nat -> WriteStep -> Option<Exception>)
    ensures var run := RunRecord(svc, r, k, codec, fetch, storeFailure);
            && (run.request.Some? <==> HasEndpoints(r) && ResolveMethod(r.httpMethod) in {"GET", "POST"})
            && (run.request.Some? ==>
                  && Endpoint(svc.client) <= run.request.value.url
                  && run.request.value.verb == (if ResolveMethod(r.httpMethod) == "POST" then POST else GET)
                  && (if ResolveMethod(r.httpMethod) == "POST"
                      then run.request.value.body == Some(codec.stringify(Params(svc, Payload(r))))
                      else run.request.value.url == Endpoint(svc.client) + "&" + codec.queryString(Params(svc, Payload(r)))))
  {
  }

  /** Any other method fails the record without a call. */
  lemma UnsupportedMethodFails(svc: Service, r: Rota, k: nat, codec: Codec,
                               fetch: nat -> HttpRequest -> FetchOutcome,
                               storeFailure: nat -> WriteStep -> Option<Exception>)
    requires HasEndpoints(r) && ResolveMethod(r.httpMethod) !in {"GET", "POST"}
    requires storeFailure(k)(ErrorWrite).None?
    ensures RunRecord(svc, r, k, codec, fetch, storeFailure)
            == RecordRun(None, [Update(r.id, ErrorPatch("Método HTTP não suportado: " + ResolveMethod(r.httpMethod)))], None)
  {
  }

  /** A failed API call stores the client's message behind "Erro na requisição: ". */
  lemma RemoteFailureStored(svc: Service, r: Rota, k: nat, codec: Codec,
                            fetch: nat -> HttpRequest -> FetchOutcome,
                            storeFailure: nat -> WriteStep -> Option<Exception>)
    requires RunRecord(svc, r, k, codec, fetch, storeFailure).request.Some?
    requires storeFailure(k)(ErrorWrite).None?
    ensures var run := RunRecord(svc, r, k, codec, fetch, storeFailure);
            var settled := Settle(svc.client, fetch(k)(run.request.value));
            settled.Err? && settled.error.Error? ==>
              run == RecordRun(run.request, [Update(r.id, ErrorPatch("Erro na requisição: " + settled.error.message))], None)
  {
  }

  /** A successful call stores the serialised reply together with the status
      `published`, and sets the status once more. */
  lemma SuccessfulCallPublishes(svc: Service, r: Rota, k: nat, codec: Codec,
                                fetch: nat -> HttpRequest -> FetchOutcome,
                                storeFailure: nat -> WriteStep -> Option<Exception>)
    requires RunRecord(svc, r, k, codec, fetch, storeFailure).request.Some?
    requires Settle(svc.client, fetch(k)(RunRecord(svc, r, k, codec, fetch, storeFailure).request.value)).Ok?
    requires storeFailure(k)(ResponseWrite).None? && storeFailure(k)(StatusWrite).None?
    ensures var run := RunRecord(svc, r, k, codec, fetch, storeFailure);
            var reply := Settle(svc.client, fetch(k)(run.request.value)).value;
            run == RecordRun(run.request, [Update(r.id, PublishPatch(codec.stringify(reply))),
                                           Update(r.id, StatusPatch(Nome(Publicado)))], None)
  {
  }

  /** After a successful call the record is `published` with the reply as
      `response`; an `error` left by an earlier cycle stays. */
  lemma PublishedRecord(store: Store, r: Rota, response: string)
    requires r.id in store
    ensures var after := ApplyAll(store, [Update(r.id, PublishPatch(response)), Update(r.id, StatusPatch(Nome(Publicado)))]);
            r.id in after && after[r.id] == store[r.id].(status := Some("published"), response := Some(response))
  {
    var us := [Update(r.id, PublishPatch(response)), Update(r.id, StatusPatch(Nome(Publicado)))];
    ApplyAllPointwise(store, us, r.id);
    var once := ApplyPatch(store[r.id], us[0].patch);
    assert PatchAll(store[r.id], us, r.id) == PatchAll(once, us[1..], r.id);
    assert PatchAll(once, us[1..], r.id) == PatchAll(ApplyPatch(once, us[1].patch), us[2..], r.id);
    assert Nome(Publicado) == "published";
  }

  /** After a failure only `error` changes: the status stays what it was. */
  lemma FailedRecord(store: Store, r: Rota, message: string)
    requires r.id in store
    ensures var after := ApplyAll(store, [Update(r.id, ErrorPatch(message))]);
            r.id in after && after[r.id] == store[r.id].(error := Some(message))
  {
    ApplyAllPointwise(store, [Update(r.id, ErrorPatch(message))], r.id);
  }

  /** The updates of a prefix of the batch, in the order they were made. */
  function UpdatesOf(runs: seq<RecordRun>): seq<Update> {
    if |runs| == 0 then [] else UpdatesOf(runs[..|runs| - 1]) + runs[|runs| - 1].updates
  }

  const DraftQuery: Query := Query(["*"], -1, "draft")

  /** The passes of the records of the batch, each through the loop body. */
  function RunsOf(svc: Service, batch: seq<Rota>, codec: Codec,
                  fetch: nat -> HttpRequest -> FetchOutcome,
                  storeFailure: nat -> WriteStep -> Option<Exception>): (runs: seq<RecordRun>)
    ensures |runs| == |batch|
  {
    seq(|batch|, k requires 0 <= k < |batch| => RunRecord(svc, batch[k], k, codec, fetch, storeFailure))
  }

  /** The runs are the passes of a prefix of the batch. */
  predicate RunsFollow(svc: Service, batch: seq<Rota>, runs: seq<RecordRun>, codec: Codec,
                       fetch: nat -> HttpRequest -> FetchOutcome,
                       storeFailure: nat -> WriteStep -> Option<Exception>)
  {
    |runs| <= |batch| && runs == RunsOf(svc, batch, codec, fetch, storeFailure)[..|runs|]
  }

  /** How the loop over `n` records ends: it goes through every record unless
      a record's error escapes, and it rethrows exactly that error, after
      which no record is processed. */
  predicate BatchEnded(n: nat, runs: seq<RecordRun>, outcome: Result<(), Exception>) {
    && |runs| <= n
    && (outcome.Ok? <==> |runs| == n && forall k | 0 <= k < |runs| :: runs[k].escaped.None?)
    && (outcome.Err? ==>
          && |runs| > 0
          && Some(outcome.error) == runs[|runs| - 1].escaped
          && forall k | 0 <= k < |runs| - 1 :: runs[k].escaped.None?)
  }

  /** The `for` loop of `sincronizar`. `passes[k]` is what record `k`'s pass
      through the loop body does; it is fixed by the oracles, so the loop
      only decides how many passes take place and applies their updates. */
  method SyncBatch(store: Store, passes: seq<RecordRun>)
    returns (outcome: Result<(), Exception>, store': Store, runs: seq<RecordRun>)
    ensures |runs| <= |passes| && runs == passes[..|runs|]
    ensures BatchEnded(|passes|, runs, outcome)
    ensures store' == ApplyAll(store, UpdatesOf(runs))
  {
    runs := [];
    store' := store;
    for k := 0 to |passes|
      invariant runs == passes[..k]
      invariant forall j | 0 <= j < k :: runs[j].escaped.None?
      invariant store' == ApplyAll(store, UpdatesOf(runs))
    {
      var run := passes[k];
      ApplyAllConcat(store, UpdatesOf(runs), run.updates);
      assert passes[..k + 1] == runs + [run];
      assert (runs + [run])[..k] == runs;
      runs := runs + [run];
      store' := ApplyAll(store', run.updates);
      if run.escaped.Some? {
        outcome := Err(run.escaped.value);
        return;
      }
    }
    outcome := Ok(());
  }

  /** `sincronizar()`. `outcome` is `Err` exactly when the cycle rethrows. */
  method Sincronizar(svc: Service, store: Store,
                     readByQuery: Query -> Result<seq<Rota>, Exception>,
                     codec: Codec,
                     fetch: nat -> HttpRequest -> FetchOutcome,
                     storeFailure: nat -> WriteStep -> Option<Exception>)
    returns (outcome: Result<(), Exception>, store': Store, cache: seq<Rota>, queried: Option<Query>, runs: seq<RecordRun>)
    ensures queried == Some(DraftQuery)
    ensures readByQuery(DraftQuery).Err? ==>
              outcome == Err(readByQuery(DraftQuery).error) && store' == store && cache == [] && runs == []
    ensures readByQuery(DraftQuery).Ok? ==>
              && cache == readByQuery(DraftQuery).value
              && RunsFollow(svc, readByQuery(DraftQuery).value, runs, codec, fetch, storeFailure)
              && BatchEnded(|readByQuery(DraftQuery).value|, runs, outcome)
    ensures readByQuery(DraftQuery).Ok? ==>
              var batch := readByQuery(DraftQuery).value;
              outcome.Err? <==> |runs| > 0 && ErrorWriteFails(svc, batch[|runs| - 1], |runs| - 1, codec, fetch, storeFailure)
    ensures store' == ApplyAll(store, UpdatesOf(runs))
  {
    cache := [];
    var read := ObterRotasPorStatus(cache, Nome(Rascunho), readByQuery);
    queried := read.issued;
    cache := read.cache;
    if read.result.Err? {
      outcome := Err(read.result.error);
      store' := store;
      runs := [];
      return;
    }
    var batch := read.result.value;
    outcome, store', runs := SyncBatch(store, RunsOf(svc, batch, codec, fetch, storeFailure));
    CycleRethrows(svc, batch, runs, outcome, codec, fetch, storeFailure);
  }

  /** Every update of the k-th run addresses the k-th record of the batch. */
  predicate RunsAddress(runs: seq<RecordRun>, batch: seq<Rota>) {
    && |runs| <= |batch|
    && forall k, i | 0 <= k < |runs| && 0 <= i < |runs[k].updates| :: runs[k].updates[i].id == batch[k].id
  }

  predicate DistinctIds(batch: seq<Rota>) {
    forall i, j | 0 <= i < |batch| && 0 <= j < |batch| && i != j :: batch[i].id != batch[j].id
  }

  /** The runs of a cycle, one per processed record: run `k` is record `k`'s
      pass, addresses only that record and sets no status but `published`. */
  lemma RunsFollowRecords(svc: Service, batch: seq<Rota>, runs: seq<RecordRun>, codec: Codec,
                          fetch: nat -> HttpRequest -> FetchOutcome,
                          storeFailure: nat -> WriteStep -> Option<Exception>)
    requires RunsFollow(svc, batch, runs, codec, fetch, storeFailure)
    ensures forall k | 0 <= k < |runs| :: runs[k] == RunRecord(svc, batch[k], k, codec, fetch, storeFailure)
    ensures RunsAddress(runs, batch)
    ensures forall k | 0 <= k < |runs| :: OnlyPublishes(runs[k].updates)
  {
    forall k | 0 <= k < |runs|
      ensures runs[k] == RunRecord(svc, batch[k], k, codec, fetch, storeFailure)
    {
      assert runs[k] == RunsOf(svc, batch, codec, fetch, storeFailure)[k];
    }
  }

  /** The cycle rethrows exactly when the error write of a record's pass
      fails, and that record is the last one processed; it goes through the
      whole batch exactly when no record's error write fails. */
  lemma CycleRethrows(svc: Service, batch: seq<Rota>, runs: seq<RecordRun>, outcome: Result<(), Exception>,
                      codec: Codec, fetch: nat -> HttpRequest -> FetchOutcome,
                      storeFailure: nat -> WriteStep -> Option<Exception>)
    requires RunsFollow(svc, batch, runs, codec, fetch, storeFailure)
    requires BatchEnded(|batch|, runs, outcome)
    ensures outcome.Err? <==>
              |runs| > 0 && ErrorWriteFails(svc, batch[|runs| - 1], |runs| - 1, codec, fetch, storeFailure)
    ensures outcome.Err? ==> Some(outcome.error) == storeFailure(|runs| - 1)(ErrorWrite)
    ensures forall k | 0 <= k < |runs| - 1 :: !ErrorWriteFails(svc, batch[k], k, codec, fetch, storeFailure)
    ensures outcome.Ok? <==>
              |runs| == |batch| && forall k | 0 <= k < |batch| :: !ErrorWriteFails(svc, batch[k], k, codec, fetch, storeFailure)
  {
    RunsFollowRecords(svc, batch, runs, codec, fetch, storeFailure);
    forall k | 0 <= k < |runs|
      ensures runs[k].escaped.Some? <==> ErrorWriteFails(svc, batch[k], k, codec, fetch, storeFailure)
    {
      RecordEscapes(svc, batch[k], k, codec, fetch, storeFailure);
    }
  }

  /** No update of the cycle addresses a record none of its runs was about. */
  lemma {:induction false} UpdatesOfAvoid(runs: seq<RecordRun>, batch: seq<Rota>, id: string)
    requires RunsAddress(runs, batch)
    requires forall k | 0 <= k < |runs| :: batch[k].id != id
    ensures forall i | 0 <= i < |UpdatesOf(runs)| :: UpdatesOf(runs)[i].id != id
    decreases |runs|
  {
    if |runs| > 0 {
      var n := |runs| - 1;
      assert RunsAddress(runs[..n], batch) by {
        forall k, i | 0 <= k < n && 0 <= i < |runs[..n][k].updates|
          ensures runs[..n][k].updates[i].id == batch[k].id
        {
          assert runs[..n][k] == runs[k];
        }
      }
      UpdatesOfAvoid(runs[..n], batch, id);
      var us := UpdatesOf(runs);
      assert us == UpdatesOf(runs[..n]) + runs[n].updates;
      forall i | 0 <= i < |us| ensures us[i].id != id {
        if i >= |UpdatesOf(runs[..n])| {
          assert us[i] == runs[n].updates[i - |UpdatesOf(runs[..n])|];
        }
      }
    }
  }

  /** With distinct ids, the record of run `k` sees only run `k`'s updates. */
  lemma {:induction false} RecordIsolation(r: Rota, runs: seq<RecordRun>, batch: seq<Rota>, k: nat)
    requires RunsAddress(runs, batch) && DistinctIds(batch)
    requires k < |runs|
    ensures PatchAll(r, UpdatesOf(runs), batch[k].id) == PatchAll(r, runs[k].updates, batch[k].id)
    decreases |runs|
  {
    var n := |runs| - 1;
    var id := batch[k].id;
    var prefix := runs[..n];
    assert RunsAddress(prefix, batch) by {
      forall j, i | 0 <= j < n && 0 <= i < |prefix[j].updates|
        ensures prefix[j].updates[i].id == batch[j].id
      {
        assert prefix[j] == runs[j];
      }
    }
    PatchAllConcat(r, UpdatesOf(prefix), runs[n].updates, id);
    if k == n {
      UpdatesOfAvoid(prefix, batch, id);
      PatchAllOthers(r, UpdatesOf(prefix), id);
    } else {
      assert prefix[k] == runs[k];
      RecordIsolation(r, prefix, batch, k);
      PatchAllOthers(PatchAll(r, runs[k].updates, id), runs[n].updates, id);
    }
  }

  /** The effect of a cycle on the store, record by record: each record of the
      batch ends as if its run had been the only one, and every other record
      is left as it was. */
  lemma CycleEffect(store: Store, runs: seq<RecordRun>, batch: seq<Rota>)
    requires RunsAddress(runs, batch) && DistinctIds(batch)
    ensures ApplyAll(store, UpdatesOf(runs)).Keys == store.Keys
    ensures forall k | 0 <= k < |runs| && batch[k].id in store ::
              batch[k].id in ApplyAll(store, runs[k].updates) &&
              ApplyAll(store, UpdatesOf(runs))[batch[k].id] == ApplyAll(store, runs[k].updates)[batch[k].id]
    ensures forall id | id in store && (forall k | 0 <= k < |batch| :: batch[k].id != id) ::
              ApplyAll(store, UpdatesOf(runs))[id] == store[id]
  {
    ApplyAllKeys(store, UpdatesOf(runs));
    forall k | 0 <= k < |runs| && batch[k].id in store
      ensures batch[k].id in ApplyAll(store, runs[k].updates) &&
              ApplyAll(store, UpdatesOf(runs))[batch[k].id] == ApplyAll(store, runs[k].updates)[batch[k].id]
    {
      var id := batch[k].id;
      ApplyAllPointwise(store, UpdatesOf(runs), id);
      ApplyAllPointwise(store, runs[k].updates, id);
      RecordIsolation(store[id], runs, batch, k);
    }
    forall id | id in store && (forall k | 0 <= k < |batch| :: batch[k].id != id)
      ensures ApplyAll(store, UpdatesOf(runs))[id] == store[id]
    {
      UpdatesOfAvoid(runs, batch, id);
      ApplyAllUntouched(store, UpdatesOf(runs), id);
    }
  }

  /** Patches that set no status other than `published`. */
  predicate OnlyPublishes(us: seq<Update>) {
    forall i | 0 <= i < |us| :: us[i].patch.status.None? || us[i].patch.status == Some(Nome(Publicado))
  }

  lemma {:induction false} PatchAllStatus(r: Rota, us: seq<Update>, id: string)
    requires OnlyPublishes(us)
    ensures PatchAll(r, us, id).status in {r.status, Some("published")}
    decreases |us|
  {
    if |us| > 0 {
      var r' := if us[0].id == id then ApplyPatch(r, us[0].patch) else r;
      assert OnlyPublishes(us[1..]) by {
        forall i | 0 <= i < |us[1..]| ensures us[1..][i].patch.status.None? || us[1..][i].patch.status == Some(Nome(Publicado)) {
          assert us[1..][i] == us[i + 1];
        }
      }
      PatchAllStatus(r', us[1..], id);
    }
  }

  /** The cycle moves records to `published` or leaves their status alone: it
      never archives a record nor marks it `error`. */
  lemma CycleOnlyPublishes(store: Store, runs: seq<RecordRun>, id: string)
    requires forall k | 0 <= k < |runs| :: OnlyPublishes(runs[k].updates)
    requires id in store
    ensures id in ApplyAll(store, UpdatesOf(runs))
    ensures ApplyAll(store, UpdatesOf(runs))[id].status in {store[id].status, Some("published")}
  {
    ApplyAllPointwise(store, UpdatesOf(runs), id);
    UpdatesOfPublish(runs);
    PatchAllStatus(store[id], UpdatesOf(runs), id);
  }

  lemma {:induction false} UpdatesOfPublish(runs: seq<RecordRun>)
    requires forall k | 0 <= k < |runs| :: OnlyPublishes(runs[k].updates)
    ensures OnlyPublishes(UpdatesOf(runs))
    decreases |runs|
  {
    if |runs| > 0 {
      var n := |runs| - 1;
      assert forall k | 0 <= k < n :: runs[..n][k] == runs[k];
      UpdatesOfPublish(runs[..n]);
      var us := UpdatesOf(runs);
      assert us == UpdatesOf(runs[..n]) + runs[n].updates;
      forall i | 0 <= i < |us| ensures us[i].patch.status.None? || us[i].patch.status == Some(Nome(Publicado)) {
        if i >= |UpdatesOf(runs[..n])| {
          assert us[i] == runs[n].updates[i - |UpdatesOf(runs[..n])|];
        } else {
          assert us[i] == UpdatesOf(runs[..n])[i];
        }
      }
    }
  }
}

=== FILE: schema_sync.dfy ===
/** The schema hook's reconciliation (src/update-schema-hook/index.ts): after
    login, compare the bundled schema with the collections and fields Directus
    reports and issue `createCollection`, `createField` and `updateField`
    requests for what differs. Every SDK call goes through `withRetry`; the
    outcome of each attempt is an oracle, indexed by collection, field and
    attempt number. */
module SchemaSync {
  import opened Wrappers
  import opened Errors
  import opened Json
  import opened DeepEquality
  import opened Retry

  /** A field entry of the schema file, as the `Field` interface declares it. */
  datatype Field = Field(collection: string, field: string, fieldType: string, schema: Option<Value>, meta: Option<Value>)

  /** A collection entry of the schema file. */
  datatype CollectionDef = CollectionDef(collection: string, meta: Option<Value>, schema: Option<Value>)

  datatype Schema = Schema(collections: seq<CollectionDef>, fields: seq<Field>)

  function OptionalProp(key: string, v: Option<Value>): seq<Prop> {
    match v
    case Some(x) => [Prop(key, x)]
    case None => []
  }

  /** The object `JSON.parse` built for a field entry; `deepEqual` compares it
      with the field Directus reports. */
  function FieldObject(f: Field): Value {
    Obj([Prop("collection", Str(f.collection)), Prop("field", Str(f.field)), Prop("type", Str(f.fieldType))]
        + OptionalProp("schema", f.schema) + OptionalProp("meta", f.meta))
  }

  /** A destructuring default `= {}`: it replaces `undefined` only, not `null`. */
  function OrEmptyObject(v: Option<Value>): (r: Value)
    ensures v.None? ==> r == Obj([])
    ensures v.Some? ==> r == v.value
  {
    v.GetOr(Obj([]))
  }

  datatype WriteKind = Create | Update

  /** A `createField` or `updateField` request. */
  datatype FieldWrite = FieldWrite(kind: WriteKind, collection: string, field: string, fieldType: string, schema: Value, meta: Value)

  /** What `processFields` did with one field entry. `ok` says whether the
      write, retried, finally succeeded. */
  datatype FieldStep =
    | SkippedId
    | ReadFailed
    | Wrote(write: FieldWrite, ok: bool)
    | Unchanged

  /** `f.collection === collectionName && f.field === fieldName` for a field Directus reports. */
  predicate IsExisting(e: Value, collectionName: string, fieldName: string) {
    StrictEquals(Get(e, "collection"), Str(collectionName)) && StrictEquals(Get(e, "field"), Str(fieldName))
  }

  /** `all[i]` is the first reported field that matches. */
  predicate FirstExisting(all: seq<Value>, i: int, collectionName: string, fieldName: string) {
    && 0 <= i < |all|
    && IsExisting(all[i], collectionName, fieldName)
    && forall j | 0 <= j < i :: !IsExisting(all[j], collectionName, fieldName)
  }

  /** The `filter` on `f.collection === collectionName`. */
  function FieldsOfCollection(all: seq<Value>, collectionName: string): seq<Value> {
    if |all| == 0 then []
    else
      (if StrictEquals(Get(all[0], "collection"), Str(collectionName)) then [all[0]] else [])
      + FieldsOfCollection(all[1..], collectionName)
  }

  /** The `find` on `f.field === fieldName`. */
  function FindField(existing: seq<Value>, fieldName: string): Option<Value> {
    if |existing| == 0 then None
    else if StrictEquals(Get(existing[0], "field"), Str(fieldName)) then Some(existing[0])
    else FindField(existing[1..], fieldName)
  }

  /** Filtering by collection and then finding by name yields the first
      reported field that matches both, or nothing when none does. */
  lemma {:induction false} FindExisting(all: seq<Value>, collectionName: string, fieldName: string)
    ensures FindField(FieldsOfCollection(all, collectionName), fieldName).None? <==>
              forall i | 0 <= i < |all| :: !IsExisting(all[i], collectionName, fieldName)
    ensures FindField(FieldsOfCollection(all, collectionName), fieldName).Some? ==>
              exists i :: FirstExisting(all, i, collectionName, fieldName)
                          && all[i] == FindField(FieldsOfCollection(all, collectionName), fieldName).value
    decreases |all|
  {
    if |all| > 0 {
      var rest := all[1..];
      FindExisting(rest, collectionName, fieldName);
      var found := FindField(FieldsOfCollection(all, collectionName), fieldName);
      if StrictEquals(Get(all[0], "collection"), Str(collectionName)) {
        assert FieldsOfCollection(all, collectionName) == [all[0]] + FieldsOfCollection(rest, collectionName);
      } else {
        assert FieldsOfCollection(all, collectionName) == FieldsOfCollection(rest, collectionName);
      }
      if IsExisting(all[0], collectionName, fieldName) {
        assert FirstExisting(all, 0, collectionName, fieldName);
      } else {
        assert found == FindField(FieldsOfCollection(rest, collectionName), fieldName);
        forall i | 0 <= i < |rest| ensures rest[i] == all[i + 1] { }
        if found.Some? {
          var i :| FirstExisting(rest, i, collectionName, fieldName) && rest[i] == found.value;
          assert FirstExisting(all, i + 1, collectionName, fieldName);
        }
      }
    }
  }

  /** The decision `processFields` takes for one entry, given how its
      `readFields` and (when needed) its write settled. */
  function FieldStepFor(collectionName: string, f: Field,
                        read: RetryOutcome<seq<Value>, Exception>,
                        write: RetryOutcome<(), Exception>): (step: FieldStep)
    ensures step == SkippedId <==> f.field == "id"
    ensures step.Wrote? ==> step.write.collection == collectionName && step.write.field == f.field
  {
    if f.field == "id" then SkippedId
    else match read
      case Rejected(_) => ReadFailed
      case Resolved(all) =>
        var schema := OrEmptyObject(f.schema);
        var meta := OrEmptyObject(f.meta);
        match FindField(FieldsOfCollection(all, collectionName), f.field)
        case None => Wrote(FieldWrite(Create, collectionName, f.field, f.fieldType, schema, meta), write.Resolved?)
        case Some(existing) =>
          if !DeepEqual(existing, FieldObject(f))
          then Wrote(FieldWrite(Update, collectionName, f.field, f.fieldType, schema, meta), write.Resolved?)
          else Unchanged
  }

  /** The decision for one entry against the fields Directus reports:
      `id` is skipped, a failed read writes nothing, a missing field is
      created, a first match that is not `deepEqual` is updated and one that
      is stays as it is; a write carries the entry's type and its
      `schema`/`meta` defaulted to `{}`, and succeeded when its retries did. */
  lemma FieldDecision(collectionName: string, f: Field,
                      read: RetryOutcome<seq<Value>, Exception>,
                      write: RetryOutcome<(), Exception>)
    ensures var step := FieldStepFor(collectionName, f, read, write);
            && (step == ReadFailed <==> f.field != "id" && read.Rejected?)
            && (step.Wrote? ==>
                  && step.write.fieldType == f.fieldType
                  && step.write.schema == OrEmptyObject(f.schema)
                  && step.write.meta == OrEmptyObject(f.meta)
                  && (step.ok <==> write.Resolved?))
            && (step.Wrote? && step.write.kind == Create <==>
                  && f.field != "id"
                  && read.Resolved?
                  && forall i | 0 <= i < |read.value| :: !IsExisting(read.value[i], collectionName, f.field))
            && (step.Wrote? && step.write.kind == Update <==>
                  && f.field != "id"
                  && read.Resolved?
                  && exists i :: FirstExisting(read.value, i, collectionName, f.field)
                                 && !DeepEqual(read.value[i], FieldObject(f)))
            && (step == Unchanged <==>
                  && f.field != "id"
                  && read.Resolved?
                  && exists i :: FirstExisting(read.value, i, collectionName, f.field)
                                 && DeepEqual(read.value[i], FieldObject(f)))
  {
    if f.field != "id" && read.Resolved? {
      FindExisting(read.value, collectionName, f.field);
      FirstExistingUnique(read.value, collectionName, f.field);
    }
  }

  /** There is at most one first match. */
  lemma FirstExistingUnique(all: seq<Value>, collectionName: string, fieldName: string)
    ensures forall i, j ::
              (FirstExisting(all, i, collectionName, fieldName) && FirstExisting(all, j, collectionName, fieldName))
              ==> i == j
  {
  }

  /** `withRetry` rethrew `null` or `undefined`: the last attempt threw one,
      or no attempt ran and `lastError` stayed `undefined`. */
  predicate NullishThrow(lastError: Option<Exception>) {
    lastError.None? || lastError.value.Nullish?
  }

  /** The `TypeError` that reading `message` of `null` or `undefined`
      throws. Its text depends on the JavaScript engine and is left empty. */
  const MessageOfNullish: Exception := Error("TypeError", "")

  /** The entry's `catch` logs `error.message`, which itself throws when the
      read or the write was rejected with a nullish value; that exception
      leaves `processFields`. */
  predicate FieldThrows(collectionName: string, f: Field,
                        read: RetryOutcome<seq<Value>, Exception>,
                        write: RetryOutcome<(), Exception>)
  {
    || (f.field != "id" && read.Rejected? && NullishThrow(read.lastError))
    || (FieldStepFor(collectionName, f, read, write).Wrote? && write.Rejected? && NullishThrow(write.lastError))
  }

  /** Entry `k` of `fields` with its own retried read and write. */
  function StepAt(collectionName: string, fields: seq<Field>, k: nat,
                  readAttempt: nat -> nat -> Attempt<seq<Value>, Exception>,
                  writeAttempt: nat -> nat -> Attempt<(), Exception>): FieldStep
    requires k < |fields|
  {
    FieldStepFor(collectionName, fields[k], Retried(readAttempt(k), DefaultRetries), Retried(writeAttempt(k), DefaultRetries))
  }

  predicate ThrowsAt(collectionName: string, fields: seq<Field>, k: nat,
                     readAttempt: nat -> nat -> Attempt<seq<Value>, Exception>,
                     writeAttempt: nat -> nat -> Attempt<(), Exception>)
    requires k < |fields|
  {
    FieldThrows(collectionName, fields[k], Retried(readAttempt(k), DefaultRetries), Retried(writeAttempt(k), DefaultRetries))
  }

  /** A run of `processFields`: the entries of a prefix handled in order,
      each as its decision prescribes; it stops early exactly at the first
      entry whose `catch` throws, and `crashed` says whether it did. */
  predicate FieldsRan(collectionName: string, fields: seq<Field>, steps: seq<FieldStep>, crashed: bool,
                      readAttempt: nat -> nat -> Attempt<seq<Value>, Exception>,
                      writeAttempt: nat -> nat -> Attempt<(), Exception>)
  {
    && |steps| <= |fields|
    && (forall k | 0 <= k < |steps| :: steps[k] == StepAt(collectionName, fields, k, readAttempt, writeAttempt))
    && (forall k | 0 <= k < |steps| - 1 :: !ThrowsAt(collectionName, fields, k, readAttempt, writeAttempt))
    && (crashed <==> |steps| > 0 && ThrowsAt(collectionName, fields, |steps| - 1, readAttempt, writeAttempt))
    && (!crashed ==> |steps| == |fields|)
  }

  /** The requests a run of `processFields` sent, in order. */
  function WritesOf(steps: seq<FieldStep>): (writes: seq<FieldWrite>)
    ensures |writes| <= |steps|
  {
    if |steps| == 0 then []
    else WritesOf(steps[..|steps| - 1]) + (if steps[|steps| - 1].Wrote? then [steps[|steps| - 1].write] else [])
  }

  /** The `try` block of `processFields` for one entry, with its read and
      write attempts. */
  method ProcessField(collectionName: string, f: Field,
                      readAttempt: nat -> Attempt<seq<Value>, Exception>,
                      writeAttempt: nat -> Attempt<(), Exception>)
    returns (step: FieldStep, throws: bool)
    ensures step == FieldStepFor(collectionName, f, Retried(readAttempt, DefaultRetries), Retried(writeAttempt, DefaultRetries))
    ensures throws == FieldThrows(collectionName, f, Retried(readAttempt, DefaultRetries), Retried(writeAttempt, DefaultRetries))
  {
    throws := false;
    if f.field == "id" {
      return SkippedId, false;
    }
    var read, _, _ := WithRetry(readAttempt, DefaultRetries, DefaultDelayMs);
    if read.Rejected? {
      return ReadFailed, NullishThrow(read.lastError);
    }
    var existing := FindField(FieldsOfCollection(read.value, collectionName), f.field);
    var schema := OrEmptyObject(f.schema);
    var meta := OrEmptyObject(f.meta);
    if existing.Some? && DeepEqual(existing.value, FieldObject(f)) {
      return Unchanged, false;
    }
    var kind := if existing.Some? then Update else Create;
    var written, _, _ := WithRetry(writeAttempt, DefaultRetries, DefaultDelayMs);
    step := Wrote(FieldWrite(kind, collectionName, f.field, f.fieldType, schema, meta), written.Resolved?);
    throws := written.Rejected? && NullishThrow(written.lastError);
  }

  /** Writes drawn from steps that never write `id` and stay in one
      collection never write `id` and stay in that collection. */
  lemma {:induction false} WritesOfTarget(steps: seq<FieldStep>, collectionName: string)
    requires forall k | 0 <= k < |steps| && steps[k].Wrote? ::
               steps[k].write.field != "id" && steps[k].write.collection == collectionName
    ensures forall w | w in WritesOf(steps) :: w.field != "id" && w.collection == collectionName
    decreases |steps|
  {
    if |steps| > 0 {
      var n := |steps| - 1;
      assert forall k | 0 <= k < n :: steps[..n][k] == steps[k];
      WritesOfTarget(steps[..n], collectionName);
    }
  }

  /** The entries before `|steps|` were handled as prescribed and none threw. */
  predicate FieldsSoFar(collectionName: string, fields: seq<Field>, steps: seq<FieldStep>,
                        readAttempt: nat -> nat -> Attempt<seq<Value>, Exception>,
                        writeAttempt: nat -> nat -> Attempt<(), Exception>)
  {
    && |steps| <= |fields|
    && (forall k | 0 <= k < |steps| :: steps[k] == StepAt(collectionName, fields, k, readAttempt, writeAttempt))
    && (forall k | 0 <= k < |steps| :: !ThrowsAt(collectionName, fields, k, readAttempt, writeAttempt))
  }

  /** One more entry handled without throwing extends the prefix. */
  lemma FieldsSoFarExtend(collectionName: string, fields: seq<Field>, steps: seq<FieldStep>, step: FieldStep,
                          readAttempt: nat -> nat -> Attempt<seq<Value>, Exception>,
                          writeAttempt: nat -> nat -> Attempt<(), Exception>)
    requires FieldsSoFar(collectionName, fields, steps, readAttempt, writeAttempt)
    requires |steps| < |fields|
    requires step == StepAt(collectionName, fields, |steps|, readAttempt, writeAttempt)
    requires !ThrowsAt(collectionName, fields, |steps|, readAttempt, writeAttempt)
    ensures FieldsSoFar(collectionName, fields, steps + [step], readAttempt, writeAttempt)
  {
    var next := steps + [step];
    forall k | 0 <= k < |next|
      ensures next[k] == StepAt(collectionName, fields, k, readAttempt, writeAttempt)
    {
      if k < |steps| {
        assert next[k] == steps[k];
      }
    }
  }

  /** How a run ends: after every entry, or right after the first that throws. */
  lemma FieldsSoFarEnd(collectionName: string, fields: seq<Field>, steps: seq<FieldStep>, step: FieldStep, crashed: bool,
                       readAttempt: nat -> nat -> Attempt<seq<Value>, Exception>,
                       writeAttempt: nat -> nat -> Attempt<(), Exception>)
    requires FieldsSoFar(collectionName, fields, steps, readAttempt, writeAttempt)
    requires !crashed ==> |steps| == |fields|
    requires crashed ==>
               && |steps| < |fields|
               && step == StepAt(collectionName, fields, |steps|, readAttempt, writeAttempt)
               && ThrowsAt(collectionName, fields, |steps|, readAttempt, writeAttempt)
    ensures FieldsRan(collectionName, fields, if crashed then steps + [step] else steps, crashed, readAttempt, writeAttempt)
  {
    if crashed {
      var next := steps + [step];
      forall k | 0 <= k < |next|
        ensures next[k] == StepAt(collectionName, fields, k, readAttempt, writeAttempt)
      {
        if k < |steps| {
          assert next[k] == steps[k];
        }
      }
    }
  }

  /** A run of `processFields` crashed exactly when some entry's `catch`
      throws; when it did not, no entry's does. */
  lemma FieldsRanCrash(collectionName: string, fields: seq<Field>, steps: seq<FieldStep>, crashed: bool,
                       readAttempt: nat -> nat -> Attempt<seq<Value>, Exception>,
                       writeAttempt: nat -> nat -> Attempt<(), Exception>)
    requires FieldsRan(collectionName, fields, steps, crashed, readAttempt, writeAttempt)
    ensures crashed <==> exists k | 0 <= k < |fields| :: ThrowsAt(collectionName, fields, k, readAttempt, writeAttempt)
    ensures !crashed ==> forall k | 0 <= k < |fields| :: !ThrowsAt(collectionName, fields, k, readAttempt, writeAttempt)
  {
    if crashed {
      assert ThrowsAt(collectionName, fields, |steps| - 1, readAttempt, writeAttempt);
    } else {
      forall k | 0 <= k < |fields|
        ensures !ThrowsAt(collectionName, fields, k, readAttempt, writeAttempt)
      {
        if k < |steps| - 1 {
        } else {
          assert k == |steps| - 1;
        }
      }
    }
  }

  /** The writes of a run never target `id` and stay in the collection. */
  lemma FieldsRanWrites(collectionName: string, fields: seq<Field>, steps: seq<FieldStep>, crashed: bool,
                        readAttempt: nat -> nat -> Attempt<seq<Value>, Exception>,
                        writeAttempt: nat -> nat -> Attempt<(), Exception>)
    requires FieldsRan(collectionName, fields, steps, crashed, readAttempt, writeAttempt)
    ensures forall w | w in WritesOf(steps) :: w.field != "id" && w.collection == collectionName
  {
    forall k | 0 <= k < |steps| && steps[k].Wrote?
      ensures steps[k].write.field != "id" && steps[k].write.collection == collectionName
    {
      assert steps[k] == StepAt(collectionName, fields, k, readAttempt, writeAttempt);
    }
    WritesOfTarget(steps, collectionName);
  }

  /** The loop body of `processFields` for the next entry: handle it, and
      say whether its `catch` threw. */
  method ProcessEntry(collectionName: string, fields: seq<Field>, steps: seq<FieldStep>,
                      readAttempt: nat -> nat -> Attempt<seq<Value>, Exception>,
                      writeAttempt: nat -> nat -> Attempt<(), Exception>)
    returns (next: seq<FieldStep>, throws: bool)
    requires FieldsSoFar(collectionName, fields, steps, readAttempt, writeAttempt)
    requires |steps| < |fields|
    ensures |next| == |steps| + 1
    ensures !throws ==> FieldsSoFar(collectionName, fields, next, readAttempt, writeAttempt)
    ensures throws ==> FieldsRan(collectionName, fields, next, true, readAttempt, writeAttempt)
  {
    var k := |steps|;
    var step;
    step, throws := ProcessField(collectionName, fields[k], readAttempt(k), writeAttempt(k));
    if throws {
      FieldsSoFarEnd(collectionName, fields, steps, step, true, readAttempt, writeAttempt);
    } else {
      FieldsSoFarExtend(collectionName, fields, steps, step, readAttempt, writeAttempt);
    }
    next := steps + [step];
  }

  /** `processFields(client, collectionName, fields)`. Field `k`'s read and
      write attempts are `readAttempt(k)` and `writeAttempt(k)`; a failure is
      logged and the loop goes on with the next entry, unless the failure was
      a nullish value, whose logging throws out of `processFields`. */
  method ProcessFields(collectionName: string, fields: seq<Field>,
                       readAttempt: nat -> nat -> Attempt<seq<Value>, Exception>,
                       writeAttempt: nat -> nat -> Attempt<(), Exception>)
    returns (steps: seq<FieldStep>, writes: seq<FieldWrite>, crashed: bool)
    ensures FieldsRan(collectionName, fields, steps, crashed, readAttempt, writeAttempt)
    ensures writes == WritesOf(steps)
    ensures forall w | w in writes :: w.field != "id" && w.collection == collectionName
  {
    steps := [];
    crashed := false;
    for k := 0 to |fields|
      invariant |steps| == k
      invariant FieldsSoFar(collectionName, fields, steps, readAttempt, writeAttempt)
    {
      var throws;
      steps, throws := ProcessEntry(collectionName, fields, steps, readAttempt, writeAttempt);
      if throws {
        crashed := true;
        break;
      }
    }
    if !crashed {
      FieldsSoFarEnd(collectionName, fields, steps, SkippedId, false, readAttempt, writeAttempt);
    }
    writes := WritesOf(steps);
    FieldsRanWrites(collectionName, fields, steps, crashed, readAttempt, writeAttempt);
  }
}

module SchemaUpdate {
  import opened Wrappers
  import opened Errors
  import opened Json
  import opened Retry
  import opened SchemaSync

  /** The meta a new collection gets when its entry has none (or a falsy one). */
  const DefaultCollectionMeta: Value := Obj([
    Prop("icon", Str("box")),
    Prop("note", Null),
    Prop("display_template", Null),
    Prop("hidden", Bool(false)),
    Prop("singleton", Bool(false)),
    Prop("translations", Null),
    Prop("archive_field", Null),
    Prop("archive_app_filter", Bool(true)),
    Prop("archive_value", Null),
    Prop("unarchive_value", Null),
    Prop("sort_field", Null)
  ])

  /** The schema a new collection gets when its entry has none: its own name. */
  function DefaultCollectionSchema(name: string): Value {
    Obj([Prop("name", Str(name))])
  }

  /** A `createCollection` request. */
  datatype CollectionCreate = CollectionCreate(collection: string, meta: Value, schema: Value)

  /** `v || fallback` for an optional property. */
  function OrElse(v: Option<Value>, fallback: Value): Value {
    if v.Some? && Truthy(v.value) then v.value else fallback
  }

  /** The `createCollection` request for a collection entry: a missing or
      falsy `meta`/`schema` is replaced by the fixed defaults. */
  function CreateRequest(c: CollectionDef): (r: CollectionCreate)
    ensures r.collection == c.collection
    ensures c.meta.Some? && Truthy(c.meta.value) ==> r.meta == c.meta.value
    ensures c.meta.None? || !Truthy(c.meta.value) ==> r.meta == DefaultCollectionMeta
    ensures c.schema.Some? && Truthy(c.schema.value) ==> r.schema == c.schema.value
    ensures c.schema.None? || !Truthy(c.schema.value) ==> r.schema == Obj([Prop("name", Str(c.collection))])
  {
    CollectionCreate(c.collection, OrElse(c.meta, DefaultCollectionMeta), OrElse(c.schema, DefaultCollectionSchema(c.collection)))
  }

  /** `collections.map((c) => c.collection)`. */
  function CollectionNames(listed: seq<Value>): (names: seq<Value>)
    ensures |names| == |listed|
    ensures forall i | 0 <= i < |listed| :: names[i] == Get(listed[i], "collection")
  {
    seq(|listed|, i requires 0 <= i < |listed| => Get(listed[i], "collection"))
  }

  /** `parsedSchema.fields.filter((field) => field.collection === name)`. */
  function FieldsFor(fields: seq<Field>, name: string): (r: seq<Field>)
    ensures forall f | f in r :: f in fields && f.collection == name
    ensures forall f | f in fields && f.collection == name :: f in r
  {
    if |fields| == 0 then []
    else (if fields[0].collection == name then [fields[0]] else []) + FieldsFor(fields[1..], name)
  }

  /** Each entry of the collection is kept as often as it occurs, and no
      other entry is kept at all. */
  lemma {:induction false} FieldsForCount(fields: seq<Field>, name: string, f: Field)
    ensures multiset(FieldsFor(fields, name))[f] == if f.collection == name then multiset(fields)[f] else 0
    decreases |fields|
  {
    if |fields| > 0 {
      assert fields == [fields[0]] + fields[1..];
      FieldsForCount(fields[1..], name, f);
    }
  }

  /** The filter keeps the order of the entries: filtering two consecutive
      parts is filtering each in turn. Together with the single-entry case
      this pins the result down completely. */
  lemma {:induction false} FieldsForConcat(a: seq<Field>, b: seq<Field>, name: string)
    ensures FieldsFor(a + b, name) == FieldsFor(a, name) + FieldsFor(b, name)
    decreases |a|
  {
    if |a| == 0 {
      assert a + b == b;
    } else {
      assert (a + b)[0] == a[0];
      assert (a + b)[1..] == a[1..] + b;
      FieldsForConcat(a[1..], b, name);
    }
  }

  /** A single entry is kept exactly when it belongs to the collection. */
  lemma FieldsForSingle(f: Field, name: string)
    ensures FieldsFor([f], name) == if f.collection == name then [f] else []
  {
    assert [f][1..] == [];
  }

  /** One processed collection: the creation it needed, if any, and what
      `processFields` did with its field entries. */
  datatype CollectionStep = CollectionStep(collection: string, create: Option<CollectionCreate>, fields: seq<FieldStep>)

  /** How the `server.start` action ended. Its `catch` only logs, so an abort
      leaves whatever was written before it in place. */
  datatype SchemaRun = Completed | Aborted(error: Option<Exception>)

  /** `processFields` ran for collection `i` exactly as its oracles dictate
      and went through every entry. */
  predicate FieldsProcessed(schema: Schema, i: nat, step: CollectionStep,
                            readFieldsAttempt: nat -> nat -> nat -> Attempt<seq<Value>, Exception>,
                            writeFieldAttempt: nat -> nat -> nat -> Attempt<(), Exception>)
    requires i < |schema.collections|
  {
    var name := schema.collections[i].collection;
    FieldsRan(name, FieldsFor(schema.fields, name), step.fields, false, readFieldsAttempt(i), writeFieldAttempt(i))
  }

  /** Collection `i` had to be created and its creation was rejected. */
  predicate CreationRejected(schema: Schema, existing: seq<Value>, i: nat,
                             createAttempt: nat -> nat -> Attempt<(), Exception>)
    requires i < |schema.collections|
  {
    Str(schema.collections[i].collection) !in existing && Retried(createAttempt(i), DefaultRetries).Rejected?
  }

  /** Some field entry of collection `i` makes `processFields` throw. */
  predicate FieldsCrash(schema: Schema, i: nat,
                        readFieldsAttempt: nat -> nat -> nat -> Attempt<seq<Value>, Exception>,
                        writeFieldAttempt: nat -> nat -> nat -> Attempt<(), Exception>)
    requires i < |schema.collections|
  {
    var name := schema.collections[i].collection;
    var entries := FieldsFor(schema.fields, name);
    exists k | 0 <= k < |entries| :: ThrowsAt(name, entries, k, readFieldsAttempt(i), writeFieldAttempt(i))
  }

  /** Collection `i` was handled as the loop body prescribes: created exactly
      when its name is not among `existing`, with the defaults filled in, and
      then its field entries processed. */
  predicate StepDone(schema: Schema, existing: seq<Value>, i: nat, step: CollectionStep,
                     createAttempt: nat -> nat -> Attempt<(), Exception>,
                     readFieldsAttempt: nat -> nat -> nat -> Attempt<seq<Value>, Exception>,
                     writeFieldAttempt: nat -> nat -> nat -> Attempt<(), Exception>)
  {
    && i < |schema.collections|
    && step.collection == schema.collections[i].collection
    && (step.create.Some? <==> Str(schema.collections[i].collection) !in existing)
    && (step.create.Some? ==>
          step.create.value == CreateRequest(schema.collections[i])
          && Retried(createAttempt(i), DefaultRetries).Resolved?)
    && FieldsProcessed(schema, i, step, readFieldsAttempt, writeFieldAttempt)
  }

  /** Collection `i`'s pass ended the loop, after sending what it had sent:
      the creation request exactly when its name is not among `existing`,
      and either nothing more (the creation was rejected) or the field
      entries up to the one whose `catch` threw. */
  predicate StepFailed(schema: Schema, existing: seq<Value>, i: nat, step: CollectionStep,
                       createAttempt: nat -> nat -> Attempt<(), Exception>,
                       readFieldsAttempt: nat -> nat -> nat -> Attempt<seq<Value>, Exception>,
                       writeFieldAttempt: nat -> nat -> nat -> Attempt<(), Exception>)
  {
    && i < |schema.collections|
    && var name := schema.collections[i].collection;
    && step.collection == name
    && (step.create.Some? <==> Str(name) !in existing)
    && (step.create.Some? ==> step.create.value == CreateRequest(schema.collections[i]))
    && (CreationRejected(schema, existing, i, createAttempt) ==> step.fields == [])
    && (!CreationRejected(schema, existing, i, createAttempt) ==>
          && FieldsCrash(schema, i, readFieldsAttempt, writeFieldAttempt)
          && FieldsRan(name, FieldsFor(schema.fields, name), step.fields, true, readFieldsAttempt(i), writeFieldAttempt(i)))
  }

  /** One pass of the collection loop: create collection `i` when its name is
      not among `existing`, then process its field entries. `failed` carries
      what ends the loop: the error of a rejected creation, or the
      `TypeError` thrown out of `processFields`. */
  method ProcessCollection(schema: Schema, existing: seq<Value>, i: nat,
                           createAttempt: nat -> nat -> Attempt<(), Exception>,
                           readFieldsAttempt: nat -> nat -> nat -> Attempt<seq<Value>, Exception>,
                           writeFieldAttempt: nat -> nat -> nat -> Attempt<(), Exception>)
    returns (step: CollectionStep, failed: Option<Option<Exception>>)
    requires i < |schema.collections|
    ensures failed.None? ==> StepDone(schema, existing, i, step, createAttempt, readFieldsAttempt, writeFieldAttempt)
    ensures failed.Some? <==>
              CreationRejected(schema, existing, i, createAttempt) || FieldsCrash(schema, i, readFieldsAttempt, writeFieldAttempt)
    ensures failed.Some? ==> StepFailed(schema, existing, i, step, createAttempt, readFieldsAttempt, writeFieldAttempt)
    ensures CreationRejected(schema, existing, i, createAttempt) ==>
              failed == Some(Retried(createAttempt(i), DefaultRetries).lastError) && step.fields == []
    ensures failed.Some? && !CreationRejected(schema, existing, i, createAttempt) ==>
              var name := schema.collections[i].collection;
              && failed == Some(Some(MessageOfNullish))
              && FieldsRan(name, FieldsFor(schema.fields, name), step.fields, true, readFieldsAttempt(i), writeFieldAttempt(i))
  {
    var c := schema.collections[i];
    var create: Option<CollectionCreate> := None;
    failed := None;
    if Str(c.collection) !in existing {
      create := Some(CreateRequest(c));
      var created, _, _ := WithRetry(createAttempt(i), DefaultRetries, DefaultDelayMs);
      if created.Rejected? {
        step := CollectionStep(c.collection, create, []);
        failed := Some(created.lastError);
        return;
      }
    }
    var entries := FieldsFor(schema.fields, c.collection);
    var fieldSteps, _, crashed := ProcessFields(c.collection, entries, readFieldsAttempt(i), writeFieldAttempt(i));
    FieldsRanCrash(c.collection, entries, fieldSteps, crashed, readFieldsAttempt(i), writeFieldAttempt(i));
    step := CollectionStep(c.collection, create, fieldSteps);
    if crashed {
      failed := Some(Some(MessageOfNullish));
    }
  }

  /** The `server.start` action from the schema guard on. `readCollections`
      gives the attempts of `readCollections()`; `createAttempt(i)` those of
      collection `i`'s creation; `readFieldsAttempt(i)` and
      `writeFieldAttempt(i)` feed `processFields` for collection `i`. */
  method UpdateSchema(schema: Schema,
                      readCollections: nat -> Attempt<seq<Value>, Exception>,
                      createAttempt: nat -> nat -> Attempt<(), Exception>,
                      readFieldsAttempt: nat -> nat -> nat -> Attempt<seq<Value>, Exception>,
                      writeFieldAttempt: nat -> nat -> nat -> Attempt<(), Exception>)
    returns (run: SchemaRun, steps: seq<CollectionStep>)
    ensures |schema.collections| == 0 ==> run == Aborted(Some(NewError("Schema inválido"))) && steps == []
    ensures |schema.collections| > 0 && Retried(readCollections, DefaultRetries).Rejected? ==>
              run == Aborted(Retried(readCollections, DefaultRetries).lastError) && steps == []
    ensures |steps| <= |schema.collections|
    ensures steps != [] ==> Retried(readCollections, DefaultRetries).Resolved?
    ensures forall i | 0 <= i < |steps| ::
              && Retried(readCollections, DefaultRetries).Resolved?
              && (run.Completed? || i < |steps| - 1 ==>
                    StepDone(schema, CollectionNames(Retried(readCollections, DefaultRetries).value), i, steps[i],
                             createAttempt, readFieldsAttempt, writeFieldAttempt))
    ensures run.Completed? ==> |steps| == |schema.collections|
    ensures run.Aborted? && |schema.collections| > 0 && Retried(readCollections, DefaultRetries).Resolved? ==>
              && |steps| > 0
              && var i := |steps| - 1;
              var existing := CollectionNames(Retried(readCollections, DefaultRetries).value);
              && StepFailed(schema, existing, i, steps[i], createAttempt, readFieldsAttempt, writeFieldAttempt)
              && (CreationRejected(schema, existing, i, createAttempt) ==>
                    run.error == Retried(createAttempt(i), DefaultRetries).lastError)
              && (!CreationRejected(schema, existing, i, createAttempt) ==>
                    run.error == Some(MessageOfNullish))
  {
    steps := [];
    if |schema.collections| == 0 {
      run := Aborted(Some(NewError("Schema inválido")));
      return;
    }
    var listed, _, _ := WithRetry(readCollections, DefaultRetries, DefaultDelayMs);
    if listed.Rejected? {
      run := Aborted(listed.lastError);
      return;
    }
    var existing := CollectionNames(listed.value);
    for i := 0 to |schema.collections|
      invariant |steps| == i
      invariant forall j | 0 <= j < i ::
                  StepDone(schema, existing, j, steps[j], createAttempt, readFieldsAttempt, writeFieldAttempt)
    {
      var step, failed := ProcessCollection(schema, existing, i, createAttempt, readFieldsAttempt, writeFieldAttempt);
      if failed.Some? {
        steps := steps + [step];
        run := Aborted(failed.value);
        return;
      }
      steps := steps + [step];
    }
    run := Completed;
  }
}

=== FILE: status_rota.dfy ===
/** `StatusRota` (src/routing-service/StatusRota.ts): the four lifecycle states
    of a routing record, as a closed enumeration with the name stored in the
    `status` column. */
module Status {
  import opened Wrappers

  datatype StatusRota = Rascunho | Publicado | Arquivado | Erro

  /** The `nome` of each constant. */
  function Nome(s: StatusRota): string {
    match s
    case Rascunho => "draft"
    case Publicado => "published"
    case Arquivado => "archived"
    case Erro => "error"
  }

  /** The constant a stored status names, if any. */
  function FromNome(name: string): (r: Option<StatusRota>)
    ensures r.Some? ==> Nome(r.value) == name
  {
    if name == "draft" then Some(Rascunho)
    else if name == "published" then Some(Publicado)
    else if name == "archived" then Some(Arquivado)
    else if name == "error" then Some(Erro)
    else None
  }

  /** Reading back a stored name gives the constant that was stored. */
  lemma FromNomeRoundTrip(s: StatusRota)
    ensures FromNome(Nome(s)) == Some(s)
  {
  }

  /** Distinct constants have distinct names. */
  lemma NomeInjective(s: StatusRota, t: StatusRota)
    ensures Nome(s) == Nome(t) <==> s == t
  {
    FromNomeRoundTrip(s);
    FromNomeRoundTrip(t);
  }

  /** A name is a status exactly when it is one of the four. */
  lemma FromNomeComplete(name: string)
    ensures FromNome(name).Some? <==> exists s: StatusRota :: Nome(s) == name
  {
    if exists s: StatusRota :: Nome(s) == name {
      var s: StatusRota :| Nome(s) == name;
      FromNomeRoundTrip(s);
    }
  }
}

=== FILE: text.dfy ===
/** String helpers the routing service relies on: `String.prototype.toUpperCase`
    (restricted to ASCII letters) and `Array.prototype.join`, with `Split` as the
    independent inverse that shows a join loses nothing. */
module Text {

  predicate IsLowerAscii(c: char) {
    'a' <= c <= 'z'
  }

  /** The upper-case form of one character; only ASCII letters change. */
  function UpperChar(c: char): (u: char)
    ensures !IsLowerAscii(u)
    ensures IsLowerAscii(c) ==> u as int == c as int - 32
    ensures !IsLowerAscii(c) ==> u == c
  {
    if IsLowerAscii(c) then (c as int - 32) as char else c
  }

  /** `s.toUpperCase()` for text whose letters are ASCII. */
  function ToUpperCase(s: string): (r: string)
    ensures |r| == |s|
    ensures forall i | 0 <= i < |s| :: r[i] == UpperChar(s[i])
  {
    if |s| == 0 then "" else [UpperChar(s[0])] + ToUpperCase(s[1..])
  }

  /** Upper-casing twice is upper-casing once. */
  lemma ToUpperCaseIdempotent(s: string)
    ensures ToUpperCase(ToUpperCase(s)) == ToUpperCase(s)
  {
  }

  /** `xs.join(sep)`: the elements with `sep` between neighbours; `""` for no elements. */
  function Join(xs: seq<string>, sep: char): (r: string)
    ensures |xs| == 1 ==> r == xs[0]
    decreases |xs|
  {
    if |xs| == 0 then ""
    else if |xs| == 1 then xs[0]
    else xs[0] + [sep] + Join(xs[1..], sep)
  }

  /** `s.split(sep)`: the maximal pieces between separators; `[""]` for the empty string. */
  function Split(s: string, sep: char): (pieces: seq<string>)
    ensures |pieces| > 0
    decreases |s|
  {
    if |s| == 0 then [""]
    else if s[0] == sep then [""] + Split(s[1..], sep)
    else
      var rest := Split(s[1..], sep);
      [[s[0]] + rest[0]] + rest[1..]
  }

  /** A piece free of the separator extends the first piece of whatever follows it. */
  lemma {:induction false} SplitPrefix(a: string, rest: string, sep: char)
    requires sep !in a
    ensures Split(a + rest, sep) == [a + Split(rest, sep)[0]] + Split(rest, sep)[1..]
    decreases |a|
  {
    if |a| > 0 {
      assert (a + rest)[1..] == a[1..] + rest;
      assert (a + rest)[0] == a[0];
      SplitPrefix(a[1..], rest, sep);
      assert [a[0]] + (a[1..] + Split(rest, sep)[0]) == a + Split(rest, sep)[0];
    } else {
      var pieces := Split(rest, sep);
      assert a + rest == rest && a + pieces[0] == pieces[0];
      assert pieces == [pieces[0]] + pieces[1..];
    }
  }

  /** Splitting a join of separator-free strings gives the strings back. The
      empty list is excluded: it joins to `""`, which is also the join of `[""]`. */
  lemma {:induction false} SplitJoin(xs: seq<string>, sep: char)
    requires |xs| > 0
    requires forall i | 0 <= i < |xs| :: sep !in xs[i]
    ensures Split(Join(xs, sep), sep) == xs
    decreases |xs|
  {
    if |xs| == 1 {
      SplitPrefix(xs[0], "", sep);
      assert xs[0] + "" == xs[0];
    } else {
      var tail := Join(xs[1..], sep);
      assert Join(xs, sep) == xs[0] + ([sep] + tail);
      SplitPrefix(xs[0], [sep] + tail, sep);
      assert ([sep] + tail)[1..] == tail;
      SplitJoin(xs[1..], sep);
      assert Split([sep] + tail, sep) == [""] + xs[1..];
      assert xs[0] + "" == xs[0];
      assert xs == [xs[0]] + xs[1..];
    }
  }
}

=== FILE: wrappers.dfy ===
/** Wrappers shared by every module of the model:
    `Option` for values JavaScript leaves `null`/`undefined`, and `Result`
    for operations that either return a value or throw. */
module Wrappers {

  datatype Option<+T> = None | Some(value: T) {

    /** The value, or `default` when there is none. */
    function GetOr(default: T): T {
      match this
      case Some(v) => v
      case None => default
    }
  }

  /** The outcome of a JavaScript call that returns `value` or throws `error`. */
  datatype Result<+T, +E> = Ok(value: T) | Err(error: E)
}
